=== FILE: README.md ===
# Contentful management client: constraint and editor-interface JSON codec

This project models the JSON codec of the Contentful .NET management client
for two polymorphic shapes whose wire form the client's test suite fixes
exactly.

- **Access-policy constraint trees.** A `Policy` has an effect, an ordered
  list of actions and an optional constraint. A constraint is
  `Equals(property, value)`, `Not(child)`, `And(children)` or `Or(children)`.
  Each node goes on the wire as a one-member object keyed by its variant:
  `{"equals":[{"doc":p},v]}`, `{"not":c}`, `{"and":[...]}`, `{"or":[...]}`.
  A policy is `{"effect":...,"actions":[...],"constraint":...}` with the keys
  in that order. Roles and pages of roles are read back by name. An `and`
  node reads as an `And` whose children keep their order.
- **Editor-interface controls.** A control is
  `{"fieldId":...,"widgetId":...,"settings":...}`. The `settings` key is left
  out when the control has none. The settings object has no type tag: the
  sibling `widgetId` chooses its shape (`boolean`, `rating`, `datePicker`).

The model is built in layers:

- `Json` (json.dfy) is the value tree. Objects keep their members in order, so
  key order can be observed. It also has by-name lookup and the generic list
  codecs.
- `Constraints`, `Policies` and `EditorInterfaces` are the typed codecs.
  Each encoder is paired with a decoder, and each decoder returns a `Result`
  that names the error.
- `JsonText` is the compact text form: a printer and its reader.
- `WireExamples` states each literal expectation of the tests as a lemma.

The tests compare serialized text. The model states the same expectations
at the tree level. `JsonText.PrintInjective` shows this loses nothing for
trees whose strings are plain ASCII: two such trees print the same text only
if they are the same tree.

The converter classes are not modelled; the model states the behaviour the
client's tests fix. Several things are model choices rather than promises of
the tests, and each Model table row that relies on one says so in a
"Model choice" note:

- the decoders' round trips;
- how an unknown discriminator or widget id is handled;
- how `Or` is encoded;
- the wire keys of rating and date-picker settings, `numberOfStars` and
  `format`: the tests read those settings only through the client's
  `NumberOfStars` and `DateFormat` properties and never show a key, so the
  model picks these;
- leaving a settings member out, rather than writing `null`, when its value
  is unset;
- leaving the `constraint` key out of a policy that has no constraint;
- strict reading: an absent or null `effect`, `actions`, `name`, `policies`,
  `total`, `items`, `fieldId`, `widgetId` or `controls` is a decode error
  (`MissingMember` when absent, `WrongType` when null or of another type).
  The tests only read well-formed payloads.

Every decoder states exactly when it succeeds. For the object decoders this
is a shape predicate over by-name lookups (for example
`Policies.PolicyObject`). The constraint decoder is the exception: a node
reads exactly when it is the encoding of some constraint
(`Constraints.DecodeIffEncode`). For the policy, role,
page-of-roles, control and editor-interface decoders, members the decoder
does not look up never change its result, wherever they sit in the object
(the `AmongOthers` lemmas). This does not hold for the other two readers. A
constraint node must be exactly a one-member object, so an extra member makes
it `MalformedConstraint`. Settings of a widget without a shape of its own keep
all their members, so every member is part of the result.

## Model

| member | source | states |
|---|---|---|
| Policies.EncodePolicyShape | Contentful.Core.Tests/ContentfulManagementClientTests.cs:1163-1170 | A policy is written as an object whose keys are `effect`, `actions` and then `constraint`, in that order. The `constraint` key is there exactly when the policy has a constraint. `effect` holds the effect string, `actions` holds the actions in construction order, and `constraint` holds the encoded tree. (Model choice: leaving the `constraint` key out when there is no constraint; no test serializes such a policy.) |
| Constraints.Encode | Contentful.Core.Tests/ContentfulManagementClientTests.cs:1171-1191 | Every constraint node is written as a one-member object, keyed by the discriminator of its variant. That key is one of `equals`, `not`, `and` and `or`. (Model choice: the `or` encoding, symmetric to `and`; no test builds an `Or`.) |
| WireExamples.ConstraintsSerializeCorrectly | Contentful.Core.Tests/ContentfulManagementClientTests.cs:1160-1200 | The test's policy serializes to exactly the expected tree. The keys are `effect`, `actions`, `constraint`. The actions are `["create","delete"]`. The three `and` children appear in the order added. Each `equals` wraps its property in `{"doc":p}` and carries the value bare. The `not` holds its single child. |
| WireExamples.SamplePolicyTextDeterminesTree | Contentful.Core.Tests/ContentfulManagementClientTests.cs:1194-1200 | Comparing the serialized text with the expected text is the same as comparing trees. Take any tree whose strings are plain ASCII: it prints the sample policy's text if and only if it is the sample policy's tree. |
| WireExamples.EncodePolicyPlain | Contentful.Core.Tests/ContentfulManagementClientTests.cs:1194-1200 | A policy whose effect, actions and constraint strings are plain ASCII encodes to a plain tree. The printer round trip therefore applies to its serialized text. |
| WireExamples.EncodePlain | Contentful.Core.Tests/ContentfulManagementClientTests.cs:1171-1191 | A constraint whose property and value strings are all plain ASCII encodes to a plain tree, at every depth of nesting. |
| JsonText.ReadOfPrint | Contentful.Core.Tests/ContentfulManagementClientTests.cs:1200 | Reading the compact text that is printed for a plain tree gives back that tree. This is the compact form of the test's expected text: no whitespace, single commas, quoted keys. |
| JsonText.PrintInjective | Contentful.Core.Tests/ContentfulManagementClientTests.cs:498 | Two plain trees with the same compact text are the same tree. So a text comparison like the editor-interface assertion decides tree equality (`WireExamples.EditorInterfaceTextDeterminesTree`). |
| Constraints.NotNodeWrapsOneChild | Contentful.Core.Tests/ContentfulManagementClientTests.cs:1183-1190 | A `not` node wraps exactly one constraint. It reads exactly when its single operand reads, and it reads as `Not` of that operand. An array of operands under `not` is malformed. |
| Constraints.Decode | Contentful.Core.Tests/ContentfulManagementClientTests.cs:1214-1215 | A constraint node that reads re-encodes to exactly the same JSON. A node that is not a one-member object is `MalformedConstraint`. A key that no variant owns is `UnknownDiscriminator(key)`. (Model choice: both error cases; the tests never send a malformed node or an unknown key.) |
| Constraints.DecodeAll | Contentful.Core.Tests/ContentfulManagementClientTests.cs:1275 | An `and`/`or` child list reads exactly when every element reads. The i-th result is the reading of the i-th element, so child order is kept. |
| Constraints.DecodeIffEncode | Contentful.Core.Tests/ContentfulManagementClientTests.cs:1171-1200 | A JSON tree reads as `c` if and only if it is the encoding of `c`. Both the round trip and the canonical-shape-only decoder are model choices. |
| Constraints.DecodeEncode | Contentful.Core.Tests/ContentfulManagementClientTests.cs:1171-1191 | Reading back an encoded constraint gives the constraint. This round trip is a model choice. |
| Constraints.DecodeAndChildren | Contentful.Core.Tests/ContentfulManagementClientTests.cs:1214-1215 | An `and` node whose elements all read gives an `And` with one child per element, in element order. |
| WireExamples.AndNodeFirstChild | Contentful.Core.Tests/ContentfulManagementClientTests.cs:1214-1215 | An `and` node headed by `{"equals":[{"doc":p},v]}` reads if and only if its later elements read. It then reads as an `And` whose element 0 is `Equals(p, v)`: the property comes from the `doc` wrapper and the value from the bare operand. |
| WireExamples.PolicyAndConstraintFirstChild | Contentful.Core.Tests/ContentfulManagementClientTests.cs:1214-1215 | Take a well-formed policy object whose `constraint` member is such an `and` node. It reads, and its constraint is an `And` whose element 0 is that `Equals`. |
| Policies.DecodePolicy | Contentful.Core.Tests/ContentfulManagementClientTests.cs:1273-1275 | A policy reads exactly when it is an object whose `effect` is a string, whose `actions` is an array of strings, and whose `constraint` is absent, null or a readable node. A policy that reads has the `effect` string and the `actions` array it was sent with, in order. Its constraint is absent exactly when `constraint` is missing or null. Otherwise the constraint is the reading of that member. (Model choice: an absent or null `effect` or `actions` is an error; the tests read only well-formed policies.) |
| Policies.DecodeEncodePolicy | Contentful.Core.Tests/ContentfulManagementClientTests.cs:1163-1200 | Reading back an encoded policy gives the policy. This round trip is a model choice. |
| Policies.DecodeRole | Contentful.Core.Tests/ContentfulManagementClientTests.cs:1213-1215 | A role reads exactly when it is an object whose `name` is a string and whose `policies` is an array of policy objects that read. A role that reads has the `name` it was sent with. Its i-th policy is the reading of the i-th element of `policies`. (Model choice: an absent or null `name` or `policies` is an error; the tests read only well-formed roles.) |
| Policies.DecodeEncodeRole | Contentful.Core.Tests/ContentfulManagementClientTests.cs:1213-1215 | Reading back an encoded role (name and policies) gives the role. This round trip is a model choice. |
| Policies.EncodeRole | Contentful.Core.Tests/ContentfulManagementClientTests.cs:1218-1253 | A role is written with the keys `name` and then `policies`, the policies in list order, each in the policy shape. The role's `description` and `permissions` (lines 1227-1231) are not written, because the model's role holds only a name and policies. (Model choice: the writer is the partner of `DecodeRole`; the test asserts only on the role read back.) |
| WireExamples.RolesDeserializeCorrectly | Contentful.Core.Tests/ContentfulManagementClientTests.cs:1204-1216 | A well-formed role object sent with the name `Developer` reads, and with that name. If its second policy's constraint is an `and` node headed by `equals` on `sys.type` / `Asset`, that policy reads as an `And` whose element 0 is `Equals("sys.type", "Asset")`. |
| Policies.DecodeRoleCollection | Contentful.Core.Tests/ContentfulManagementClientTests.cs:1271-1275 | A page of roles reads exactly when it is an object whose `total` is a number and whose `items` is an array of role objects that read. A page that reads has the `total` it was sent with. Its i-th role is the reading of the i-th element of `items`, so item order is kept. (Model choice: an absent or null `total` or `items` is an error; the tests read only well-formed pages.) |
| WireExamples.RolesCollectionDeserializesCorrectly | Contentful.Core.Tests/ContentfulManagementClientTests.cs:1262-1276 | A well-formed page sent with total 7 reads with total 7. Item 0, sent with the name `Author` and a first policy whose first action is `create`, reads with that name and that first action. Item 4, sent with the name `Translator 1` and a first policy whose constraint is an `and` headed by an `equals` on `Entry`, reads with that name and with that `Equals` as element 0 of the `And`. |
| Policies.EncodeRoleCollection | Contentful.Core.Tests/ContentfulManagementClientTests.cs:1262-1276 | A page of roles is written with the keys `total` and then `items`. The client only reads pages, so this writer is a model choice that serves as the reader's partner. |
| Policies.DecodeEncodeRoleCollection | Contentful.Core.Tests/ContentfulManagementClientTests.cs:1262-1276 | Reading back a written page of roles gives the page: its total and its roles, in order. This round trip is a model choice. |
| Policies.DecodePolicyAmongOthers | Contentful.Core.Tests/ContentfulManagementClientTests.cs:1273-1275 | Members other than `effect`, `actions` and `constraint`, placed anywhere before or after a policy's own members, do not change how the policy reads. |
| Policies.DecodeRoleAmongOthers | Contentful.Core.Tests/ContentfulManagementClientTests.cs:1204-1216 | Members other than `name` and `policies` do not change how a role reads, wherever they sit. Examples are a role's system metadata, description and permissions. |
| Policies.DecodeRoleCollectionAmongOthers | Contentful.Core.Tests/ContentfulManagementClientTests.cs:1262-1276 | Members other than `total` and `items` do not change how a page of roles reads, wherever they sit. |
| EditorInterfaces.EncodeControlShape | Contentful.Core.Tests/ContentfulManagementClientTests.cs:459-477 | A control is written with the keys `fieldId` and then `widgetId`. A `settings` key follows only when the control has settings: it is omitted, not null, otherwise. |
| EditorInterfaces.EncodeSettingsShape | Contentful.Core.Tests/ContentfulManagementClientTests.cs:470-475 | Settings are written in their variant's shape and with no other keys. Boolean settings use `trueLabel`, `falseLabel` and `helpText`. Rating settings use `numberOfStars` and `helpText`. Date-picker settings use `format` and `helpText`. Each member holds the setting's value and is absent when that value is unset. (Model choice: the `numberOfStars` and `format` keys, which no test shows, and leaving unset members out rather than writing `null`.) |
| EditorInterfaces.EncodeEditorInterface | Contentful.Core.Tests/ContentfulManagementClientTests.cs:457-477 | An editor interface is written as `{"controls":[...]}`, with one element per control in list order. |
| WireExamples.EditorInterfaceSerializesCorrectly | Contentful.Core.Tests/ContentfulManagementClientTests.cs:455-498 | The test's editor interface serializes to exactly the expected tree. The controls are in list order, with `fieldId` before `widgetId`. `field1` has no `settings` key. `field2` has boolean settings whose keys are `trueLabel`, `falseLabel` and `helpText`, in that order. |
| WireExamples.BooleanSettingsShape | Contentful.Core.Tests/ContentfulManagementClientTests.cs:470-475 | Boolean settings with all three values set are written as exactly `trueLabel`, `falseLabel`, `helpText` with those values. They come in that order, with nothing else. |
| WireExamples.TwoControlsShape | Contentful.Core.Tests/ContentfulManagementClientTests.cs:459-477 | Take a control without settings followed by a control with all three boolean settings set. They are written in that order: the first has no `settings` key, and the second has its labels and help text as `trueLabel`, `falseLabel`, `helpText`. |
| WireExamples.TwoControlsPlain | Contentful.Core.Tests/ContentfulManagementClientTests.cs:455-498 | An editor interface of that two-control shape whose ids, labels and help text are plain ASCII encodes to a plain tree. The printer round trip therefore applies to its serialized text. |
| WireExamples.SampleEditorInterfacePlain | Contentful.Core.Tests/ContentfulManagementClientTests.cs:455-498 | The test's editor interface encodes to a plain tree. |
| WireExamples.EditorInterfaceTextDeterminesTree | Contentful.Core.Tests/ContentfulManagementClientTests.cs:498 | Comparing the editor interface's serialized text with the expected text is the same as comparing trees. Take any tree whose strings are plain ASCII: it prints the sample editor interface's text if and only if it is that sample's tree. |
| EditorInterfaces.DecodeSettings | Contentful.Core.Tests/ContentfulManagementClientTests.cs:434-439 | Settings read exactly when they are an object whose members of the selected shape have the right type where present and not null: strings for the labels and help text, a number for the star count, and one of the three literals for the format. Settings of any other widget need only be an object. The widget id chooses the settings variant. A reading gives boolean settings exactly for `boolean`, rating settings exactly for `rating`, and date-picker settings exactly for `datePicker`. The help text reads the same way from every variant. The star count, the date format and the labels are the values of their members. (Model choice: the `numberOfStars` and `format` keys, keeping the raw members for any other widget id, and the type errors.) |
| EditorInterfaces.DecodeControl | Contentful.Core.Tests/ContentfulManagementClientTests.cs:433-439 | A control reads exactly when it is an object with string `fieldId` and `widgetId`, and its `settings` is absent, null or readable under that widget id. A control that reads has the `fieldId` and `widgetId` it was sent with. Its settings are absent exactly when `settings` is missing or null. Otherwise they are read in the shape the control's own widget id selects. (Model choice: an absent or null `fieldId` or `widgetId` is an error; the tests read only well-formed controls.) |
| EditorInterfaces.DecodeEditorInterface | Contentful.Core.Tests/ContentfulManagementClientTests.cs:433 | An editor interface reads exactly when its `controls` is an array of control objects that read. An editor interface that reads has one control per element of `controls`, in element order. (Model choice: an absent or null `controls` is an error; the tests read only well-formed editor interfaces.) |
| WireExamples.GetEditorInterfaceReturnsCorrectObject | Contentful.Core.Tests/ContentfulManagementClientTests.cs:425-440 | A well-formed editor interface sent with seven controls reads with seven. Control 4 is a `boolean` control and reads with boolean settings. Control 5 is a `rating` control sent with 7 stars and the help text "How many do you likez?", and reads with exactly those rating settings. Control 6 is a `datePicker` control sent with format `time`, and reads with the `Time` format. The test at lines 116-126 asserts the first two of these facts. |
| WireExamples.ControlSettingsOfWidget | Contentful.Core.Tests/ContentfulManagementClientTests.cs:434-439 | A well-formed control sent with settings reads with the variant its widget id selects: boolean, rating or date picker. A rating control sent with 7 stars and help text "How many do you likez?" reads as exactly those settings. A date-picker control sent with format `time` reads with the `Time` format. |
| EditorInterfaces.DecodeControlAmongOthers | Contentful.Core.Tests/ContentfulManagementClientTests.cs:433-439 | Members other than `fieldId`, `widgetId` and `settings` do not change how a control reads, wherever they sit. |
| EditorInterfaces.DecodeEditorInterfaceAmongOthers | Contentful.Core.Tests/ContentfulManagementClientTests.cs:431-433 | Members other than `controls` do not change how an editor interface reads, wherever they sit. Examples are its system metadata and sidebar. |
| WireExamples.RatingSettingsDecode | Contentful.Core.Tests/ContentfulManagementClientTests.cs:435-437 | Rating settings with `numberOfStars` n and `helpText` t read as rating settings with n stars and help text t. The uniform help-text accessor gives t. (Model choice: the `numberOfStars` key; the test reads only the `NumberOfStars` property.) |
| WireExamples.DatePickerSettingsDecode | Contentful.Core.Tests/ContentfulManagementClientTests.cs:438-439 | Date-picker settings whose `format` is `"time"` read with the `Time` format, together with their help text. |
| EditorInterfaces.ParseFormatIffLiteral | Contentful.Core.Tests/ContentfulManagementClientTests.cs:439 | A format literal reads as a date format if and only if it is that format's wire literal (`dateonly`, `time`, `timeZ`). |
| EditorInterfaces.DecodeEncodeSettings | Contentful.Core.Tests/ContentfulManagementClientTests.cs:470-475 | Settings whose variant matches the widget id read back unchanged from their encoding. This round trip is a model choice. |
| EditorInterfaces.DecodeEncodeControl | Contentful.Core.Tests/ContentfulManagementClientTests.cs:459-477 | A control whose settings match its widget id reads back unchanged from its encoding. This round trip is a model choice. |
| EditorInterfaces.DecodeEncodeEditorInterface | Contentful.Core.Tests/ContentfulManagementClientTests.cs:457-477 | An editor interface whose controls are all well formed reads back unchanged from its encoding. This round trip is a model choice. |

## Left out

- HTTP plumbing is not modelled: the fake message handler, request URLs, headers, versions and async calls. It is network-client code with no codec content.
- The JSON fixture files and the routine that loads them are file I/O, and their contents are not part of this model. The decode lemmas take as hypotheses the members the tests assert on. They also assume that the whole payload has the shape the decoders read, for example `Policies.RoleCollectionObject`. Every role, policy and constraint node in it must therefore be well formed, because the decoders are strict and the model does not see the fixture.
- The serializer library and its camel-case contract resolver are not modelled; the model gives their observable output as a tree. String escaping is also left out: `JsonText` covers only plain printable-ASCII strings without `"` or `\`, which is all the tests use.
- WireExamples.SamplePolicyTextDeterminesTree: compares a text with the printed text of the model's sample tree, not with the literal expected string at line 1200. Proving that the two-hundred-character literal equals the printed text runs out of the verifier's resources. Together with `JsonText.PrintInjective` it reduces the text comparison to the tree-level lemmas.
- WireExamples.EditorInterfaceTextDeterminesTree: compares a text with the printed text of the model's sample tree, not with the literal expected string at line 498, for the same reason.
- The value an `Equals` compares against is always a string in the tests, so it is modelled as a string. Other JSON values are not.
- `Or` encoding is never exercised by the tests. It is modelled symmetric to `And` (`{"or":[...]}`) as a model choice.
- No recursion-depth limit is modelled. Nesting depth is unbounded.
- An unknown constraint key and a wrongly shaped node are never exercised by the tests. They become the errors `UnknownDiscriminator` and `MalformedConstraint` as a model choice.
- Duplicate keys: a by-name read takes the first member with the key (`Json.LookupFindsFirst`). This is a model choice and differs from the client's serializer, which, as commonly documented for Json.NET, lets the last occurrence of a key win. The tests never send a duplicate key.
- JSON numbers are modelled as unbounded integers. Fractional and exponent forms cannot be represented, and the text reader accepts only integer text.
- Policies.DecodeRoleCollection: reads `total` as an unbounded integer. The fixed width of the client's `Total` (line 1271) is not modelled, so a count beyond it reads here.
- EditorInterfaces.DecodeSettings: reads `numberOfStars` as an unbounded integer. The fixed width of the client's `NumberOfStars` (line 436) is not modelled, so a count beyond it reads here.
- Settings of a widget id outside `boolean`, `rating` and `datePicker` are kept as raw members. This is a model choice; the tests never exercise it.
- A policy with no constraint is written without a `constraint` key. No test serializes such a policy, and the serializer settings at lines 1194-1197 set only a camel-case resolver, with no null-value rule. Leaving the key out is therefore a model choice, not something the tests fix.
- Role fields other than the name and the policies are not modelled: description, permissions and system metadata. The tests assert only names and policy constraints.
- Field validators, entries, assets, locales, webhooks, snapshots and memberships are left out. They are plain create/read/update/delete mapping whose JSON shape the tests do not fix.

=== FILE: constraints.dfy ===
/** The constraint tree of an access-control policy and its JSON codec.

A constraint is a boolean condition over an entity's properties. `And` and
`Or` own an ordered sequence of children, `Not` wraps exactly one child, and
`Equals` compares a property path with a value. On the wire every node is an
object with a single member whose key names the variant:

  Equals(p, v)  {"equals": [{"doc": p}, v]}
  Not(c)        {"not": <c>}
  And(cs)       {"and": [<cs[0]>, <cs[1]>, ...]}
  Or(cs)        {"or": [<cs[0]>, <cs[1]>, ...]}

The property path is wrapped in a `doc` object while the value is a bare
second array element; that asymmetry is part of the wire contract.
 */
module Constraints {
  import opened Wrappers
  import opened Json

  datatype Constraint =
    | Equals(property: string, value: string)
    | Not(inner: Constraint)
    | And(children: seq<Constraint>)
    | Or(children: seq<Constraint>)

  /** The key that announces each variant on the wire (key-based dispatch). */
  function Discriminator(c: Constraint): string
  {
    match c
    case Equals(_, _) => "equals"
    case Not(_) => "not"
    case And(_) => "and"
    case Or(_) => "or"
  }

  /** The keys some variant owns; any other key is an unknown discriminator. */
  const Discriminators: set<string> := {"equals", "not", "and", "or"}

  /** The `[{"doc": property}, value]` pair an `Equals` node carries. */
  function EqualsOperands(property: string, value: string): Json
  {
    Array([Object([Member("doc", String(property))]), String(value)])
  }

  /** Encodes a constraint as a one-member object keyed by its variant. */
  function Encode(c: Constraint): (j: Json)
    ensures j.Object? && |j.members| == 1
    ensures j.members[0].key == Discriminator(c) && j.members[0].key in Discriminators
  {
    match c
    case Equals(p, v) => Object([Member("equals", EqualsOperands(p, v))])
    case Not(inner) => Object([Member("not", Encode(inner))])
    case And(cs) => Object([Member("and", Array(EncodeAll(cs)))])
    case Or(cs) => Object([Member("or", Array(EncodeAll(cs)))])
  }

  /** Encodes a list of children, one array element per child, order kept. */
  function EncodeAll(cs: seq<Constraint>): (js: seq<Json>)
    ensures |js| == |cs|
    ensures forall i :: 0 <= i < |cs| ==> js[i] == Encode(cs[i])
  {
    if |cs| == 0 then [] else [Encode(cs[0])] + EncodeAll(cs[1..])
  }

  /** Reads the operands of an `equals` node. */
  function DecodeEquals(operands: Json): (r: Result<Constraint, DecodeError>)
    ensures r.Success? ==> r.value.Equals? && EqualsOperands(r.value.property, r.value.value) == operands
    ensures r.Failure? ==> r.error == MalformedConstraint
  {
    if operands.Array? && |operands.items| == 2
      && operands.items[0].Object? && |operands.items[0].members| == 1
      && operands.items[0].members[0].key == "doc"
      && operands.items[0].members[0].value.String?
      && operands.items[1].String?
    then
      assert operands.items == [operands.items[0], operands.items[1]];
      assert operands.items[0].members == [operands.items[0].members[0]];
      Success(Equals(operands.items[0].members[0].value.s, operands.items[1].s))
    else
      Failure(MalformedConstraint)
  }

  /** Decodes a constraint node, dispatching on the one key the object holds.
      Only the canonical shape written by `Encode` is accepted: a node that is
      not a one-member object is malformed, and a key no variant owns is an
      unknown discriminator. */
  function Decode(j: Json): (r: Result<Constraint, DecodeError>)
    decreases j, 1
    ensures r.Success? ==> Encode(r.value) == j
    ensures !j.Object? || |j.members| != 1 ==> r == Failure(MalformedConstraint)
    ensures j.Object? && |j.members| == 1 && j.members[0].key !in Discriminators ==>
      r == Failure(UnknownDiscriminator(j.members[0].key))
  {
    if !j.Object? || |j.members| != 1 then Failure(MalformedConstraint)
    else
      var m := j.members[0];
      assert m in j.members;
      assert j.members == [m];
      if m.key == "equals" then
        DecodeEquals(m.value)
      else if m.key == "not" then
        var inner :- Decode(m.value);
        Success(Not(inner))
      else if m.key == "and" || m.key == "or" then
        if !m.value.Array? then Failure(MalformedConstraint)
        else
          var cs :- DecodeAll(m.value.items);
          Success(if m.key == "and" then And(cs) else Or(cs))
      else
        Failure(UnknownDiscriminator(m.key))
  }

  /** Decodes the children of an `and`/`or` node, failing on the first child
      that fails and otherwise keeping their order. */
  function DecodeAll(js: seq<Json>): (r: Result<seq<Constraint>, DecodeError>)
    decreases js, 0
    ensures r.Success? ==> |r.value| == |js| && EncodeAll(r.value) == js
    ensures r.Success? <==> forall i :: 0 <= i < |js| ==> Decode(js[i]).Success?
    ensures r.Success? ==> forall i :: 0 <= i < |js| ==> Decode(js[i]) == Success(r.value[i])
  {
    if |js| == 0 then Success([])
    else
      match Decode(js[0])
      case Failure(e) => Failure(e)
      case Success(c) =>
        match DecodeAll(js[1..])
        case Failure(e) =>
          var k :| 0 <= k < |js[1..]| && Decode(js[1..][k]).Failure?;
          assert Decode(js[k + 1]).Failure?;
          Failure(e)
        case Success(cs) =>
          assert js == [js[0]] + js[1..];
          assert forall i :: 1 <= i < |js| ==> js[i] == js[1..][i - 1];
          Success([c] + cs)
  }

  /** Every well-formed tree survives a trip through the wire format. */
  lemma {:induction false} DecodeEncode(c: Constraint)
    ensures Decode(Encode(c)) == Success(c)
  {
    match c
    case Equals(p, v) =>
    case Not(inner) =>
      DecodeEncode(inner);
    case And(cs) =>
      DecodeEncodeAll(cs);
    case Or(cs) =>
      DecodeEncodeAll(cs);
  }

  lemma {:induction false} DecodeEncodeAll(cs: seq<Constraint>)
    ensures DecodeAll(EncodeAll(cs)) == Success(cs)
  {
    if |cs| > 0 {
      DecodeEncode(cs[0]);
      DecodeEncodeAll(cs[1..]);
      assert EncodeAll(cs)[1..] == EncodeAll(cs[1..]);
      assert cs == [cs[0]] + cs[1..];
    }
  }

  /** The decoder accepts exactly the encoder's image: a JSON tree decodes to
      `c` if and only if it is the encoding of `c`. */
  lemma DecodeIffEncode(j: Json, c: Constraint)
    ensures Decode(j) == Success(c) <==> Encode(c) == j
  {
    if Encode(c) == j {
      DecodeEncode(c);
    }
  }

  /** Decoding an `and` node yields an `And` whose i-th child is the decoding
      of the i-th array element. */
  lemma DecodeAndChildren(items: seq<Json>)
    requires DecodeAll(items).Success?
    ensures Decode(Object([Member("and", Array(items))])).Success?
    ensures var c := Decode(Object([Member("and", Array(items))])).value;
      c.And? && |c.children| == |items| &&
      forall i :: 0 <= i < |items| ==> Decode(items[i]) == Success(c.children[i])
  {
  }

  /** A `not` node wraps exactly one constraint: it reads exactly when its
      single operand reads, as the `Not` of that operand, and an array of
      operands under `not` is malformed. */
  lemma NotNodeWrapsOneChild(operand: Json)
    ensures Decode(Object([Member("not", operand)])).Success? <==> Decode(operand).Success?
    ensures Decode(operand).Success? ==>
      Decode(Object([Member("not", operand)])) == Success(Not(Decode(operand).value))
    ensures operand.Array? ==> Decode(Object([Member("not", operand)])) == Failure(MalformedConstraint)
  {
  }
}

=== FILE: editor_interfaces.dfy ===
/** Editor interfaces: which widget edits each field of a content type, and
the widget-specific settings of each control.

A control is written as `{"fieldId": ..., "widgetId": ..., "settings": ...}`
with `settings` left out entirely when the control has none. The settings
object carries no type tag of its own: the sibling `widgetId` decides which
shape it has (field-based dispatch).

  boolean     {"trueLabel": ..., "falseLabel": ..., "helpText": ...}
  rating      {"numberOfStars": n, "helpText": ...}
  datePicker  {"format": "dateonly" | "time" | "timeZ", "helpText": ...}

A settings member whose value is unset is left out rather than written as
null. Settings of any other widget are kept as the raw members they arrived
as, so that an editor interface naming a widget the client predates still
reads and writes back unchanged.
 */
module EditorInterfaces {
  import opened Wrappers
  import opened Json

  const BooleanWidget: string := "boolean"
  const RatingWidget: string := "rating"
  const DatePickerWidget: string := "datePicker"
  const SingleLineWidget: string := "singleLine"

  /** The widget ids whose settings have a shape of their own. */
  const SettingsWidgets: set<string> := {BooleanWidget, RatingWidget, DatePickerWidget}

  datatype DateFormat = DateOnly | Time | TimeZ

  datatype Settings =
    | BooleanSettings(helpText: Option<string>, trueLabel: Option<string>, falseLabel: Option<string>)
    | RatingSettings(helpText: Option<string>, numberOfStars: Option<int>)
    | DatePickerSettings(helpText: Option<string>, format: Option<DateFormat>)
    | OpaqueSettings(members: seq<Member>)

  datatype Control = Control(fieldId: string, widgetId: string, settings: Option<Settings>)

  datatype EditorInterface = EditorInterface(controls: seq<Control>)

  /** The wire literal of each date format. */
  function FormatLiteral(f: DateFormat): string
  {
    match f
    case DateOnly => "dateonly"
    case Time => "time"
    case TimeZ => "timeZ"
  }

  /** Reads a date format; a literal outside the closed set is an error. */
  function ParseFormat(s: string): (r: Result<DateFormat, DecodeError>)
    ensures r.Failure? ==> r.error == UnknownDateFormat(s)
  {
    if s == "dateonly" then Success(DateOnly)
    else if s == "time" then Success(Time)
    else if s == "timeZ" then Success(TimeZ)
    else Failure(UnknownDateFormat(s))
  }

  /** The date-format codec is a bijection between the enum and its three literals. */
  lemma ParseFormatIffLiteral(s: string, f: DateFormat)
    ensures ParseFormat(s) == Success(f) <==> FormatLiteral(f) == s
  {
  }

  /** The help text every settings shape carries, read the same way whatever
      the variant; for raw settings it is their `helpText` string member. */
  function HelpText(s: Settings): Option<string>
  {
    match s
    case OpaqueSettings(members) =>
      (match Lookup(members, "helpText")
       case Some(String(t)) => Some(t)
       case _ => None)
    case _ => s.helpText
  }

  /** A member that is written only when its value is set. */
  function OptionalMember(key: string, value: Option<Json>): (ms: seq<Member>)
    ensures |ms| <= 1
    ensures value.None? <==> ms == []
    ensures value.Some? ==> ms == [Member(key, value.value)]
  {
    match value
    case None => []
    case Some(v) => [Member(key, v)]
  }

  lemma OptionalMemberLookup(key: string, value: Option<Json>, k: string)
    ensures Lookup(OptionalMember(key, value), k) == if k == key then value else None
    ensures Keys(OptionalMember(key, value)) == if value.Some? then [key] else []
  {
  }

  /** Lookup in the concatenation of two optional members with distinct keys. */
  lemma TwoMembersLookup(k1: string, v1: Option<Json>, k2: string, v2: Option<Json>, k: string)
    requires k1 != k2
    ensures Lookup(OptionalMember(k1, v1) + OptionalMember(k2, v2), k) ==
      if k == k1 then v1 else if k == k2 then v2 else None
    ensures forall x :: x in Keys(OptionalMember(k1, v1) + OptionalMember(k2, v2)) ==> x == k1 || x == k2
  {
    LookupAppend(OptionalMember(k1, v1), OptionalMember(k2, v2), k);
    KeysAppend(OptionalMember(k1, v1), OptionalMember(k2, v2));
    OptionalMemberLookup(k1, v1, k);
    OptionalMemberLookup(k2, v2, k);
  }

  /** The JSON string an optional setting is written as, if it is set. */
  function StringValue(s: Option<string>): Option<Json>
  {
    match s
    case None => None
    case Some(t) => Some(String(t))
  }

  function NumberValue(n: Option<int>): Option<Json>
  {
    match n
    case None => None
    case Some(k) => Some(Number(k))
  }

  function FormatValue(f: Option<DateFormat>): Option<Json>
  {
    match f
    case None => None
    case Some(g) => Some(String(FormatLiteral(g)))
  }

  /** Writes settings in their variant's shape, leaving unset members out. */
  function EncodeSettings(s: Settings): (j: Json)
    ensures j.Object?
  {
    match s
    case BooleanSettings(help, t, f) =>
      Object(OptionalMember("trueLabel", StringValue(t)) + OptionalMember("falseLabel", StringValue(f))
        + OptionalMember("helpText", StringValue(help)))
    case RatingSettings(help, n) =>
      Object(OptionalMember("numberOfStars", NumberValue(n)) + OptionalMember("helpText", StringValue(help)))
    case DatePickerSettings(help, f) =>
      Object(OptionalMember("format", FormatValue(f)) + OptionalMember("helpText", StringValue(help)))
    case OpaqueSettings(members) =>
      Object(members)
  }

  /** Each variant is written with its own keys and no others; every member
      holds the setting's value, and is absent exactly when that value is unset. */
  lemma EncodeSettingsShape(s: Settings)
    ensures var j := EncodeSettings(s);
      && (!s.OpaqueSettings? ==> Lookup(j.members, "helpText") == StringValue(s.helpText))
      && (s.BooleanSettings? ==>
        && (forall k :: k in Keys(j.members) ==> k in ["trueLabel", "falseLabel", "helpText"])
        && Lookup(j.members, "trueLabel") == StringValue(s.trueLabel)
        && Lookup(j.members, "falseLabel") == StringValue(s.falseLabel))
      && (s.RatingSettings? ==>
        && (forall k :: k in Keys(j.members) ==> k in ["numberOfStars", "helpText"])
        && Lookup(j.members, "numberOfStars") == NumberValue(s.numberOfStars))
      && (s.DatePickerSettings? ==>
        && (forall k :: k in Keys(j.members) ==> k in ["format", "helpText"])
        && Lookup(j.members, "format") == FormatValue(s.format))
      && (s.OpaqueSettings? ==> j.members == s.members)
  {
    match s
    case BooleanSettings(help, t, f) =>
      var ab := OptionalMember("trueLabel", StringValue(t)) + OptionalMember("falseLabel", StringValue(f));
      var c := OptionalMember("helpText", StringValue(help));
      TwoMembersLookup("trueLabel", StringValue(t), "falseLabel", StringValue(f), "helpText");
      TwoMembersLookup("trueLabel", StringValue(t), "falseLabel", StringValue(f), "trueLabel");
      TwoMembersLookup("trueLabel", StringValue(t), "falseLabel", StringValue(f), "falseLabel");
      OptionalMemberLookup("helpText", StringValue(help), "helpText");
      OptionalMemberLookup("helpText", StringValue(help), "trueLabel");
      OptionalMemberLookup("helpText", StringValue(help), "falseLabel");
      LookupAppend(ab, c, "helpText");
      LookupAppend(ab, c, "trueLabel");
      LookupAppend(ab, c, "falseLabel");
      KeysAppend(ab, c);
    case RatingSettings(help, n) =>
      TwoMembersLookup("numberOfStars", NumberValue(n), "helpText", StringValue(help), "helpText");
      TwoMembersLookup("numberOfStars", NumberValue(n), "helpText", StringValue(help), "numberOfStars");
    case DatePickerSettings(help, f) =>
      TwoMembersLookup("format", FormatValue(f), "helpText", StringValue(help), "helpText");
      TwoMembersLookup("format", FormatValue(f), "helpText", StringValue(help), "format");
    case OpaqueSettings(members) =>
  }

  /** `format` is absent, null, or one of the three literals. */
  predicate FormatMember(members: seq<Member>)
  {
    Lookup(members, "format").None? || Lookup(members, "format").value.Null?
    || (Lookup(members, "format").value.String? && Lookup(members, "format").value.s in {"dateonly", "time", "timeZ"})
  }

  function DecodeFormat(members: seq<Member>): (r: Result<Option<DateFormat>, DecodeError>)
    ensures r.Success? <==> FormatMember(members)
    ensures r == Success(None) <==> Lookup(members, "format") in {None, Some(Null)}
    ensures forall f :: r == Success(Some(f)) <==> Lookup(members, "format") == Some(String(FormatLiteral(f)))
  {
    match Lookup(members, "format")
    case None => Success(None)
    case Some(Null) => Success(None)
    case Some(String(s)) =>
      (match ParseFormat(s)
       case Success(f) => Success(Some(f))
       case Failure(e) => Failure(e))
    case Some(_) => Failure(WrongType("format"))
  }

  /** The shape a settings object must have to be read under a widget id:
      an object whose members of the selected shape, where present and not
      null, have the right JSON type. Raw settings only need to be an object. */
  predicate SettingsObject(widgetId: string, j: Json)
  {
    && j.Object?
    && (widgetId in SettingsWidgets ==> NullableString(j.members, "helpText"))
    && (widgetId == BooleanWidget ==> NullableString(j.members, "trueLabel") && NullableString(j.members, "falseLabel"))
    && (widgetId == RatingWidget ==> NullableNumber(j.members, "numberOfStars"))
    && (widgetId == DatePickerWidget ==> FormatMember(j.members))
  }

  /** Reads a settings object in the shape the control's widget id selects. */
  function DecodeSettings(widgetId: string, j: Json): (r: Result<Settings, DecodeError>)
    ensures r.Success? <==> SettingsObject(widgetId, j)
    ensures r.Success? ==> (r.value.BooleanSettings? <==> widgetId == BooleanWidget)
    ensures r.Success? ==> (r.value.RatingSettings? <==> widgetId == RatingWidget)
    ensures r.Success? ==> (r.value.DatePickerSettings? <==> widgetId == DatePickerWidget)
    ensures r.Success? ==> (r.value.OpaqueSettings? <==> widgetId !in SettingsWidgets)
    ensures j.Object? && widgetId !in SettingsWidgets ==> r == Success(OpaqueSettings(j.members))
    ensures r.Success? ==> forall t :: HelpText(r.value) == Some(t) <==> Lookup(j.members, "helpText") == Some(String(t))
    ensures r.Success? && r.value.RatingSettings? ==>
      forall n :: r.value.numberOfStars == Some(n) <==> Lookup(j.members, "numberOfStars") == Some(Number(n))
    ensures r.Success? && r.value.DatePickerSettings? ==>
      forall f :: r.value.format == Some(f) <==> Lookup(j.members, "format") == Some(String(FormatLiteral(f)))
    ensures r.Success? && r.value.BooleanSettings? ==>
      && (forall t :: r.value.trueLabel == Some(t) <==> Lookup(j.members, "trueLabel") == Some(String(t)))
      && (forall t :: r.value.falseLabel == Some(t) <==> Lookup(j.members, "falseLabel") == Some(String(t)))
  {
    if !j.Object? then Failure(WrongType("settings"))
    else if widgetId == BooleanWidget then
      var t :- OptionalString(j.members, "trueLabel");
      var f :- OptionalString(j.members, "falseLabel");
      var help :- OptionalString(j.members, "helpText");
      Success(BooleanSettings(help, t, f))
    else if widgetId == RatingWidget then
      var n :- OptionalNumber(j.members, "numberOfStars");
      var help :- OptionalString(j.members, "helpText");
      Success(RatingSettings(help, n))
    else if widgetId == DatePickerWidget then
      var f :- DecodeFormat(j.members);
      var help :- OptionalString(j.members, "helpText");
      Success(DatePickerSettings(help, f))
    else
      Success(OpaqueSettings(j.members))
  }

  /** Settings whose variant is the one the widget id selects; only such
      settings can be read back from the wire unchanged. */
  predicate SettingsMatchWidget(widgetId: string, s: Settings)
  {
    match s
    case BooleanSettings(_, _, _) => widgetId == BooleanWidget
    case RatingSettings(_, _) => widgetId == RatingWidget
    case DatePickerSettings(_, _) => widgetId == DatePickerWidget
    case OpaqueSettings(_) => widgetId !in SettingsWidgets
  }

  lemma DecodeEncodeSettings(widgetId: string, s: Settings)
    requires SettingsMatchWidget(widgetId, s)
    ensures DecodeSettings(widgetId, EncodeSettings(s)) == Success(s)
  {
    var ms := EncodeSettings(s).members;
    EncodeSettingsShape(s);
    match s
    case BooleanSettings(help, t, f) =>
      OptionalStringOfValue(ms, "trueLabel", t);
      OptionalStringOfValue(ms, "falseLabel", f);
      OptionalStringOfValue(ms, "helpText", help);
    case RatingSettings(help, n) =>
      assert OptionalNumber(ms, "numberOfStars") == Success(n) by {
        if n.None? {} else {}
      }
      OptionalStringOfValue(ms, "helpText", help);
    case DatePickerSettings(help, f) =>
      assert DecodeFormat(ms) == Success(f) by {
        if f.None? {} else {}
      }
      OptionalStringOfValue(ms, "helpText", help);
    case OpaqueSettings(_) =>
  }

  lemma OptionalStringOfValue(ms: seq<Member>, key: string, v: Option<string>)
    requires Lookup(ms, key) == StringValue(v)
    ensures OptionalString(ms, key) == Success(v)
  {
  }

  function EncodeControl(c: Control): (j: Json)
    ensures j.Object?
  {
    Object([Member("fieldId", String(c.fieldId)), Member("widgetId", String(c.widgetId))]
      + OptionalMember("settings", if c.settings.Some? then Some(EncodeSettings(c.settings.value)) else None))
  }

  /** A control is written with `fieldId` then `widgetId`, followed by
      `settings` only when it has settings; each key holds its value. */
  lemma EncodeControlShape(c: Control)
    ensures var j := EncodeControl(c);
      && Keys(j.members) == ["fieldId", "widgetId"] + (if c.settings.Some? then ["settings"] else [])
      && Lookup(j.members, "fieldId") == Some(String(c.fieldId))
      && Lookup(j.members, "widgetId") == Some(String(c.widgetId))
      && Lookup(j.members, "settings") == if c.settings.Some? then Some(EncodeSettings(c.settings.value)) else None
  {
  }

  /** The shape a control must have to be read: `fieldId` and `widgetId`
      strings, and `settings` absent, null or readable under that widget id. */
  predicate ControlObject(j: Json)
  {
    && j.Object?
    && StringMember(j.members, "fieldId")
    && StringMember(j.members, "widgetId")
    && SettingsMember(Lookup(j.members, "widgetId").value.s, j.members)
  }

  predicate SettingsMember(widgetId: string, members: seq<Member>)
  {
    Lookup(members, "settings").None? || Lookup(members, "settings").value.Null?
    || SettingsObject(widgetId, Lookup(members, "settings").value)
  }

  /** Reads a control; its settings, when present, take the shape its widget id selects. */
  function DecodeControl(j: Json): (r: Result<Control, DecodeError>)
    ensures r.Success? <==> ControlObject(j)
    ensures r.Success? ==> Lookup(j.members, "fieldId") == Some(String(r.value.fieldId))
    ensures r.Success? ==> Lookup(j.members, "widgetId") == Some(String(r.value.widgetId))
    ensures r.Success? ==> (r.value.settings.None? <==> Lookup(j.members, "settings") in {None, Some(Null)})
    ensures r.Success? && r.value.settings.Some? ==>
      DecodeSettings(r.value.widgetId, Lookup(j.members, "settings").value) == Success(r.value.settings.value)
  {
    if !j.Object? then Failure(WrongType("control"))
    else
      var fieldId :- RequiredString(j.members, "fieldId");
      var widgetId :- RequiredString(j.members, "widgetId");
      match Lookup(j.members, "settings")
      case None => Success(Control(fieldId, widgetId, None))
      case Some(Null) => Success(Control(fieldId, widgetId, None))
      case Some(raw) =>
        match DecodeSettings(widgetId, raw)
        case Failure(e) => Failure(e)
        case Success(s) => Success(Control(fieldId, widgetId, Some(s)))
  }

  /** A control whose settings, if any, match its widget id. */
  predicate WellFormedControl(c: Control)
  {
    c.settings.Some? ==> SettingsMatchWidget(c.widgetId, c.settings.value)
  }

  lemma DecodeEncodeControl(c: Control)
    requires WellFormedControl(c)
    ensures DecodeControl(EncodeControl(c)) == Success(c)
  {
    var ms := EncodeControl(c).members;
    EncodeControlShape(c);
    assert RequiredString(ms, "fieldId") == Success(c.fieldId);
    assert RequiredString(ms, "widgetId") == Success(c.widgetId);
    match c.settings
    case None =>
      assert Lookup(ms, "settings") == None;
    case Some(st) =>
      assert Lookup(ms, "settings") == Some(EncodeSettings(st));
      DecodeEncodeSettings(c.widgetId, st);
  }

  function EncodeEditorInterface(e: EditorInterface): (j: Json)
    ensures j.Object? && Keys(j.members) == ["controls"]
    ensures Lookup(j.members, "controls") == Some(Array(EncodeEach(EncodeControl, e.controls)))
  {
    Object([Member("controls", Array(EncodeEach(EncodeControl, e.controls)))])
  }

  /** The shape an editor interface must have to be read: `controls` an
      array of control objects. */
  predicate EditorInterfaceObject(j: Json)
  {
    && j.Object?
    && ArrayMember(j.members, "controls")
    && forall i :: 0 <= i < |Lookup(j.members, "controls").value.items| ==>
         ControlObject(Lookup(j.members, "controls").value.items[i])
  }

  /** Reads an editor interface; its i-th control is read from the i-th
      element of `controls`. */
  function DecodeEditorInterface(j: Json): (r: Result<EditorInterface, DecodeError>)
    ensures r.Success? <==> EditorInterfaceObject(j)
    ensures r.Success? ==>
      j.Object? && Lookup(j.members, "controls").Some? && Lookup(j.members, "controls").value.Array? &&
      var items := Lookup(j.members, "controls").value.items;
      |r.value.controls| == |items| &&
      forall i :: 0 <= i < |items| ==> DecodeControl(items[i]) == Success(r.value.controls[i])
  {
    if !j.Object? then Failure(WrongType("editorInterface"))
    else
      match Lookup(j.members, "controls")
      case Some(Array(items)) =>
        var controls :- DecodeEach(DecodeControl, items);
        Success(EditorInterface(controls))
      case None => Failure(MissingMember("controls"))
      case Some(_) => Failure(WrongType("controls"))
  }

  lemma DecodeEncodeEditorInterface(e: EditorInterface)
    requires forall i :: 0 <= i < |e.controls| ==> WellFormedControl(e.controls[i])
    ensures DecodeEditorInterface(EncodeEditorInterface(e)) == Success(e)
  {
    forall i | 0 <= i < |e.controls| {
      DecodeEncodeControl(e.controls[i]);
    }
    DecodeEachEncodeEach(EncodeControl, DecodeControl, e.controls);
  }

  /** Members other than `fieldId`, `widgetId` and `settings` (a control's
      `widgetNamespace`, say) do not change how a control reads. */
  lemma DecodeControlAmongOthers(before: seq<Member>, members: seq<Member>, after: seq<Member>)
    requires "fieldId" !in Keys(before) && "fieldId" !in Keys(after)
    requires "widgetId" !in Keys(before) && "widgetId" !in Keys(after)
    requires "settings" !in Keys(before) && "settings" !in Keys(after)
    ensures DecodeControl(Object(before + members + after)) == DecodeControl(Object(members))
  {
    LookupAmongOthers(before, members, after, "fieldId");
    LookupAmongOthers(before, members, after, "widgetId");
    LookupAmongOthers(before, members, after, "settings");
    DecodeControlOfLookups(before + members + after, members);
  }

  lemma DecodeControlOfLookups(a: seq<Member>, b: seq<Member>)
    requires Lookup(a, "fieldId") == Lookup(b, "fieldId")
    requires Lookup(a, "widgetId") == Lookup(b, "widgetId")
    requires Lookup(a, "settings") == Lookup(b, "settings")
    ensures DecodeControl(Object(a)) == DecodeControl(Object(b))
  {
  }

  /** Members other than `controls` (an editor interface's `sys`, `sidebar`
      or `editors`) do not change how an editor interface reads. */
  lemma DecodeEditorInterfaceAmongOthers(before: seq<Member>, members: seq<Member>, after: seq<Member>)
    requires "controls" !in Keys(before) && "controls" !in Keys(after)
    ensures DecodeEditorInterface(Object(before + members + after)) == DecodeEditorInterface(Object(members))
  {
    LookupAmongOthers(before, members, after, "controls");
    DecodeEditorInterfaceOfLookups(before + members + after, members);
  }

  lemma DecodeEditorInterfaceOfLookups(a: seq<Member>, b: seq<Member>)
    requires Lookup(a, "controls") == Lookup(b, "controls")
    ensures DecodeEditorInterface(Object(a)) == DecodeEditorInterface(Object(b))
  {
  }
}

=== FILE: json.dfy ===
/** The generic JSON value tree (RFC 8259) that the codecs read from and write to.

Objects keep their members as an ordered sequence rather than a map, because
the order in which an encoder emits keys is part of the wire contract the
client's consumers compare against. Numbers are the integers the codecs use.
 */
module Json {
  import opened Wrappers

  datatype Json =
    | Null
    | Bool(b: bool)
    | Number(n: int)
    | String(s: string)
    | Array(items: seq<Json>)
    | Object(members: seq<Member>)

  /** One `"key": value` pair of an object, in the position it was written. */
  datatype Member = Member(key: string, value: Json)

  /** Why a JSON tree could not be read as a typed value. All the codecs
      share this one type, so that `:-` carries an error from a nested reader
      (a constraint inside a policy, a policy inside a role) up unchanged;
      the constraint and date-format variants are raised only by those codecs. */
  datatype DecodeError =
    | UnknownDiscriminator(key: string)  // a constraint object keyed by a name no variant owns
    | MalformedConstraint                // a constraint node of the wrong arity or shape
    | MissingMember(key: string)         // a required member is absent
    | WrongType(key: string)             // a member holds a value of the wrong JSON type
    | UnknownDateFormat(literal: string) // a date-picker format outside the closed set

  /** The keys of an object's members, in order. */
  function Keys(members: seq<Member>): (ks: seq<string>)
    ensures |ks| == |members|
    ensures forall i :: 0 <= i < |members| ==> ks[i] == members[i].key
  {
    if |members| == 0 then [] else [members[0].key] + Keys(members[1..])
  }

  /** The value of the first member named `key`, the way a by-name reader
      finds a property regardless of where it sits in the object. */
  function Lookup(members: seq<Member>, key: string): (r: Option<Json>)
    ensures r.None? <==> key !in Keys(members)
    ensures r.Some? ==> Member(key, r.value) in members
  {
    if |members| == 0 then None
    else if members[0].key == key then Some(members[0].value)
    else Lookup(members[1..], key)
  }

  /** A member that no earlier member shares a key with is the one Lookup finds. */
  lemma {:induction false} LookupAtFirst(members: seq<Member>, i: nat)
    requires i < |members| && members[i].key !in Keys(members[..i])
    ensures Lookup(members, members[i].key) == Some(members[i].value)
  {
    if i > 0 {
      var key := members[i].key;
      assert Keys(members[..i])[0] == members[0].key;
      assert members[1..][..i - 1] == members[1..i];
      assert Keys(members[..i]) == [members[0].key] + Keys(members[1..i]);
      LookupAtFirst(members[1..], i - 1);
    }
  }

  /** The position of the first member named `key`. */
  function FirstIndexOf(members: seq<Member>, key: string): (i: nat)
    requires key in Keys(members)
    ensures i < |members| && members[i].key == key && key !in Keys(members[..i])
  {
    if members[0].key == key then
      assert members[..0] == [];
      0
    else
      KeysOfPrefix(members, |members|);
      assert members[..|members|] == members;
      var k := FirstIndexOf(members[1..], key);
      KeysOfPrefix(members, k + 1);
      k + 1
  }

  /** The keys of a non-empty prefix are the first key and the keys of the rest's prefix. */
  lemma KeysOfPrefix(members: seq<Member>, n: nat)
    requires 0 < n <= |members|
    ensures Keys(members[..n]) == [members[0].key] + Keys(members[1..][..n - 1])
  {
    assert members[..n][1..] == members[1..][..n - 1];
  }

  /** Lookup returns exactly the value of the first member with that key. */
  lemma LookupFindsFirst(members: seq<Member>, key: string, v: Json)
    ensures Lookup(members, key) == Some(v) <==>
      exists i :: 0 <= i < |members| && members[i] == Member(key, v) && key !in Keys(members[..i])
  {
    if Lookup(members, key) == Some(v) {
      var i := FirstIndexOf(members, key);
      LookupAtFirst(members, i);
    }
    forall i | 0 <= i < |members| && members[i] == Member(key, v) && key !in Keys(members[..i]) {
      LookupAtFirst(members, i);
    }
  }

  lemma {:induction false} KeysAppend(a: seq<Member>, b: seq<Member>)
    ensures Keys(a + b) == Keys(a) + Keys(b)
  {
    if |a| > 0 {
      KeysAppend(a[1..], b);
      assert (a + b)[1..] == a[1..] + b;
    } else {
      assert a + b == b;
    }
  }

  /** Looking a key up in two member lists written one after the other finds
      it in the first list when it is there, and in the second otherwise. */
  lemma {:induction false} LookupAppend(a: seq<Member>, b: seq<Member>, key: string)
    ensures Lookup(a + b, key) == if key in Keys(a) then Lookup(a, key) else Lookup(b, key)
  {
    if |a| == 0 {
      assert a + b == b;
    } else {
      var ab := a + b;
      assert ab[0] == a[0];
      assert Keys(a)[0] == a[0].key;
      if a[0].key != key {
        assert ab[1..] == a[1..] + b;
        LookupAppend(a[1..], b, key);
        assert Keys(a) == [a[0].key] + Keys(a[1..]);
      }
    }
  }

  /** Members with other keys, written before or after, do not change what a
      by-name read finds. */
  lemma LookupAmongOthers(before: seq<Member>, members: seq<Member>, after: seq<Member>, key: string)
    requires key !in Keys(before) && key !in Keys(after)
    ensures Lookup(before + members + after, key) == Lookup(members, key)
  {
    LookupAppend(before, members, key);
    LookupAppend(before + members, after, key);
    KeysAppend(before, members);
  }

  /** A member that must be present and hold a string. */
  function RequiredString(members: seq<Member>, key: string): (r: Result<string, DecodeError>)
    ensures r.Success? <==> Lookup(members, key).Some? && Lookup(members, key).value.String?
    ensures r.Success? ==> Lookup(members, key) == Some(String(r.value))
  {
    match Lookup(members, key)
    case None => Failure(MissingMember(key))
    case Some(String(s)) => Success(s)
    case Some(_) => Failure(WrongType(key))
  }

  /** The member `key` is present and holds a string. */
  predicate StringMember(members: seq<Member>, key: string)
  {
    Lookup(members, key).Some? && Lookup(members, key).value.String?
  }

  /** The member `key` is present and holds an array. */
  predicate ArrayMember(members: seq<Member>, key: string)
  {
    Lookup(members, key).Some? && Lookup(members, key).value.Array?
  }

  /** The member `key` is absent, null, or a string. */
  predicate NullableString(members: seq<Member>, key: string)
  {
    Lookup(members, key).None? || Lookup(members, key).value.Null? || Lookup(members, key).value.String?
  }

  /** The member `key` is absent, null, or a number. */
  predicate NullableNumber(members: seq<Member>, key: string)
  {
    Lookup(members, key).None? || Lookup(members, key).value.Null? || Lookup(members, key).value.Number?
  }

  /** A member that may be absent or null, and otherwise holds a string. */
  function OptionalString(members: seq<Member>, key: string): (r: Result<Option<string>, DecodeError>)
    ensures r.Success? <==> NullableString(members, key)
    ensures r == Success(None) <==> Lookup(members, key) in {None, Some(Null)}
    ensures forall s :: r == Success(Some(s)) <==> Lookup(members, key) == Some(String(s))
  {
    match Lookup(members, key)
    case None => Success(None)
    case Some(Null) => Success(None)
    case Some(String(s)) => Success(Some(s))
    case Some(_) => Failure(WrongType(key))
  }

  /** A member that may be absent or null, and otherwise holds an integer. */
  function OptionalNumber(members: seq<Member>, key: string): (r: Result<Option<int>, DecodeError>)
    ensures r.Success? <==> NullableNumber(members, key)
    ensures r == Success(None) <==> Lookup(members, key) in {None, Some(Null)}
    ensures forall n :: r == Success(Some(n)) <==> Lookup(members, key) == Some(Number(n))
  {
    match Lookup(members, key)
    case None => Success(None)
    case Some(Null) => Success(None)
    case Some(Number(n)) => Success(Some(n))
    case Some(_) => Failure(WrongType(key))
  }

  /** A list of strings written as a JSON array, order kept. */
  function StringArray(xs: seq<string>): (js: seq<Json>)
    ensures |js| == |xs|
    ensures forall i :: 0 <= i < |xs| ==> js[i] == String(xs[i])
  {
    if |xs| == 0 then [] else [String(xs[0])] + StringArray(xs[1..])
  }

  /** Reads back an array every element of which is a string; None otherwise. */
  function ReadStrings(js: seq<Json>): (r: Option<seq<string>>)
    ensures r.Some? <==> forall i :: 0 <= i < |js| ==> js[i].String?
    ensures r.Some? ==> StringArray(r.value) == js
  {
    if |js| == 0 then Some([])
    else if !js[0].String? then None
    else
      match ReadStrings(js[1..])
      case None => None
      case Some(rest) =>
        assert js == [js[0]] + js[1..];
        Some([js[0].s] + rest)
  }

  /** The two list codecs are inverse to each other. */
  lemma {:induction false} ReadStringsOfStringArray(xs: seq<string>)
    ensures ReadStrings(StringArray(xs)) == Some(xs)
  {
    if |xs| > 0 {
      ReadStringsOfStringArray(xs[1..]);
      assert StringArray(xs)[1..] == StringArray(xs[1..]);
      assert xs == [xs[0]] + xs[1..];
    }
  }

  /** Writes a list as array elements, one per item, order kept. */
  function EncodeEach<T>(encode: T -> Json, xs: seq<T>): (js: seq<Json>)
    ensures |js| == |xs|
    ensures forall i :: 0 <= i < |xs| ==> js[i] == encode(xs[i])
  {
    if |xs| == 0 then [] else [encode(xs[0])] + EncodeEach(encode, xs[1..])
  }

  /** Reads every element of an array with `decode`, failing on the first
      element that fails and otherwise keeping the elements' order. */
  function DecodeEach<T>(decode: Json -> Result<T, DecodeError>, js: seq<Json>): (r: Result<seq<T>, DecodeError>)
    ensures r.Success? <==> forall i :: 0 <= i < |js| ==> decode(js[i]).Success?
    ensures r.Success? ==> |r.value| == |js|
    ensures r.Success? ==> forall i :: 0 <= i < |js| ==> decode(js[i]) == Success(r.value[i])
  {
    if |js| == 0 then Success([])
    else
      match decode(js[0])
      case Failure(e) => Failure(e)
      case Success(x) =>
        match DecodeEach(decode, js[1..])
        case Failure(e) =>
          var k :| 0 <= k < |js[1..]| && decode(js[1..][k]).Failure?;
          assert decode(js[k + 1]).Failure?;
          Failure(e)
        case Success(xs) =>
          assert forall i :: 1 <= i < |js| ==> js[i] == js[1..][i - 1];
          Success([x] + xs)
  }

  /** An element codec that round-trips lifts to the list codec. */
  lemma {:induction false} DecodeEachEncodeEach<T>(encode: T -> Json, decode: Json -> Result<T, DecodeError>, xs: seq<T>)
    requires forall i :: 0 <= i < |xs| ==> decode(encode(xs[i])) == Success(xs[i])
    ensures DecodeEach(decode, EncodeEach(encode, xs)) == Success(xs)
  {
    if |xs| > 0 {
      DecodeEachEncodeEach(encode, decode, xs[1..]);
      assert EncodeEach(encode, xs)[1..] == EncodeEach(encode, xs[1..]);
      assert xs == [xs[0]] + xs[1..];
    }
  }
}

=== FILE: json_text.dfy ===
/** The compact text form of a JSON tree, as the serializer writes it: no
whitespace, members and elements separated by single commas, integers in
decimal, strings between double quotes.

Only "plain" strings are covered: printable ASCII without `"` and `\`, which
a JSON string may hold verbatim. Escaping of any other character is not part
of this model. `Read` is the inverse of `Print` on plain trees, which shows
that the printed text determines the tree: comparing texts is comparing trees.
 */
module JsonText {
  import opened Wrappers
  import opened Json

  predicate PlainChar(c: char)
  {
    ' ' <= c <= '~' && c != '"' && c != '\\'
  }

  predicate PlainString(s: string)
  {
    forall i :: 0 <= i < |s| ==> PlainChar(s[i])
  }

  /** Every string and every key in the tree is plain. */
  predicate Plain(j: Json)
    decreases j, 1
  {
    match j
    case String(s) => PlainString(s)
    case Array(items) => PlainItems(items)
    case Object(members) => PlainMembers(members)
    case _ => true
  }

  predicate PlainItems(items: seq<Json>)
    decreases items, 0
  {
    forall i :: 0 <= i < |items| ==> Plain(items[i])
  }

  predicate PlainMembers(members: seq<Member>)
    decreases members, 0
  {
    forall i :: 0 <= i < |members| ==> PlainString(members[i].key) && Plain(members[i].value)
  }

  predicate IsDigit(c: char)
  {
    '0' <= c <= '9'
  }

  function DigitChar(d: nat): char
    requires d < 10
  {
    ('0' as int + d) as char
  }

  function DigitValue(c: char): nat
    requires IsDigit(c)
  {
    (c - '0') as nat
  }

  /** The decimal digits of a natural number, most significant first. */
  function NatText(n: nat): (s: string)
    ensures |s| > 0 && forall i :: 0 <= i < |s| ==> IsDigit(s[i])
  {
    if n < 10 then [DigitChar(n)] else NatText(n / 10) + [DigitChar(n % 10)]
  }

  function IntText(n: int): string
  {
    if n < 0 then "-" + NatText(-n) else NatText(n)
  }

  function Print(j: Json): string
    decreases j, 1
  {
    match j
    case Null => "null"
    case Bool(b) => if b then "true" else "false"
    case Number(n) => IntText(n)
    case String(s) => "\"" + s + "\""
    case Array(items) => "[" + PrintItems(items) + "]"
    case Object(members) => "{" + PrintMembers(members) + "}"
  }

  function PrintItems(items: seq<Json>): string
    decreases items, 0
  {
    if |items| == 0 then ""
    else if |items| == 1 then Print(items[0])
    else Print(items[0]) + "," + PrintItems(items[1..])
  }

  function PrintMember(m: Member): string
    decreases m, 0
  {
    "\"" + m.key + "\"" + ":" + Print(m.value)
  }

  function PrintMembers(members: seq<Member>): string
    decreases members, 0
  {
    if |members| == 0 then ""
    else if |members| == 1 then PrintMember(members[0])
    else PrintMember(members[0]) + "," + PrintMembers(members[1..])
  }

  // ---------------------------------------------------------------------
  // Reading the compact form back.

  /** The length of the run of digits `s` starts with. */
  function DigitRun(s: string): (k: nat)
    ensures k <= |s|
    ensures forall i :: 0 <= i < k ==> IsDigit(s[i])
    ensures k < |s| ==> !IsDigit(s[k])
  {
    if |s| == 0 || !IsDigit(s[0]) then 0 else 1 + DigitRun(s[1..])
  }

  /** The number a string of decimal digits denotes. */
  function DigitsValue(d: string): nat
    requires forall i :: 0 <= i < |d| ==> IsDigit(d[i])
  {
    if |d| == 0 then 0 else DigitsValue(d[..|d| - 1]) * 10 + DigitValue(d[|d| - 1])
  }

  /** Reads an optionally negative integer from the front of `s`. */
  function ReadNumber(s: string): (r: Option<(Json, string)>)
    ensures r.Some? ==> |r.value.1| < |s|
  {
    var negative := |s| > 0 && s[0] == '-';
    var t := if negative then s[1..] else s;
    var k := DigitRun(t);
    if k == 0 then None
    else
      var v: int := DigitsValue(t[..k]);
      Some((Number(if negative then -v else v), t[k..]))
  }

  /** Reads the characters of a string up to its closing quote. */
  function ReadChars(s: string): (r: Option<(string, string)>)
    ensures r.Some? ==> |r.value.1| < |s|
  {
    if |s| == 0 || !(s[0] == '"' || PlainChar(s[0])) then None
    else if s[0] == '"' then Some(([], s[1..]))
    else
      match ReadChars(s[1..])
      case None => None
      case Some((cs, rest)) => Some(([s[0]] + cs, rest))
  }

  /** Reads one value from the front of `s`, returning it and what follows. */
  function ReadValue(s: string): (r: Option<(Json, string)>)
    decreases |s|, 0
    ensures r.Some? ==> |r.value.1| < |s|
  {
    if |s| == 0 then None
    else if s[0] == 'n' then
      if |s| >= 4 && s[..4] == "null" then Some((Null, s[4..])) else None
    else if s[0] == 't' then
      if |s| >= 4 && s[..4] == "true" then Some((Bool(true), s[4..])) else None
    else if s[0] == 'f' then
      if |s| >= 5 && s[..5] == "false" then Some((Bool(false), s[5..])) else None
    else if s[0] == '"' then
      match ReadChars(s[1..])
      case None => None
      case Some((cs, rest)) => Some((String(cs), rest))
    else if s[0] == '[' then
      if |s| >= 2 && s[1] == ']' then Some((Array([]), s[2..]))
      else
        match ReadItems(s[1..])
        case None => None
        case Some((items, rest)) => Some((Array(items), rest))
    else if s[0] == '{' then
      if |s| >= 2 && s[1] == '}' then Some((Object([]), s[2..]))
      else
        match ReadMembers(s[1..])
        case None => None
        case Some((members, rest)) => Some((Object(members), rest))
    else
      ReadNumber(s)
  }

  /** Reads `v (, v)* ]`: the elements of a non-empty array and its closing bracket. */
  function ReadItems(s: string): (r: Option<(seq<Json>, string)>)
    decreases |s|, 1
    ensures r.Some? ==> |r.value.1| < |s|
  {
    match ReadValue(s)
    case None => None
    case Some((v, rest)) =>
      if |rest| == 0 then None
      else if rest[0] == ']' then Some(([v], rest[1..]))
      else if rest[0] == ',' then
        match ReadItems(rest[1..])
        case None => None
        case Some((vs, rest')) => Some(([v] + vs, rest'))
      else None
  }

  /** Reads `"k":v (, "k":v)* }`: the members of a non-empty object and its closing brace. */
  function ReadMembers(s: string): (r: Option<(seq<Member>, string)>)
    decreases |s|, 1
    ensures r.Some? ==> |r.value.1| < |s|
  {
    if |s| == 0 || s[0] != '"' then None
    else
      match ReadChars(s[1..])
      case None => None
      case Some((key, afterKey)) =>
        if |afterKey| == 0 || afterKey[0] != ':' then None
        else
          match ReadValue(afterKey[1..])
          case None => None
          case Some((v, rest)) =>
            if |rest| == 0 then None
            else if rest[0] == '}' then Some(([Member(key, v)], rest[1..]))
            else if rest[0] == ',' then
              match ReadMembers(rest[1..])
              case None => None
              case Some((ms, rest')) => Some(([Member(key, v)] + ms, rest'))
            else None
  }

  /** Reads a whole text as one value; trailing text is an error. */
  function Read(s: string): Option<Json>
  {
    match ReadValue(s)
    case Some((j, rest)) => if rest == [] then Some(j) else None
    case None => None
  }

  // ---------------------------------------------------------------------
  // Reading what was printed gives back what was printed.

  /** Text that cannot continue a number printed before it. */
  predicate NoDigitStart(rest: string)
  {
    |rest| == 0 || !IsDigit(rest[0])
  }

  lemma {:induction false} NatTextValue(n: nat)
    ensures DigitsValue(NatText(n)) == n
  {
    if n >= 10 {
      var s := NatText(n);
      assert s[..|s| - 1] == NatText(n / 10);
      NatTextValue(n / 10);
    }
  }

  lemma {:induction false} DigitRunOf(d: string, rest: string)
    requires forall i :: 0 <= i < |d| ==> IsDigit(d[i])
    requires NoDigitStart(rest)
    ensures DigitRun(d + rest) == |d|
  {
    if |d| > 0 {
      assert (d + rest)[1..] == d[1..] + rest;
      DigitRunOf(d[1..], rest);
    } else {
      assert d + rest == rest;
    }
  }

  lemma ReadNatOfText(n: nat, rest: string)
    requires NoDigitStart(rest)
    ensures DigitRun(NatText(n) + rest) == |NatText(n)|
    ensures (NatText(n) + rest)[..|NatText(n)|] == NatText(n)
    ensures (NatText(n) + rest)[|NatText(n)|..] == rest
    ensures DigitsValue(NatText(n)) == n
  {
    DigitRunOf(NatText(n), rest);
    NatTextValue(n);
  }

  lemma ReadNumberOfText(n: int, rest: string)
    requires NoDigitStart(rest)
    ensures ReadNumber(IntText(n) + rest) == Some((Number(n), rest))
  {
    if n < 0 {
      ReadNegativeOfText(-n, rest);
    } else {
      ReadNonNegativeOfText(n, rest);
    }
  }

  lemma ReadNonNegativeOfText(n: nat, rest: string)
    requires NoDigitStart(rest)
    ensures ReadNumber(NatText(n) + rest) == Some((Number(n), rest))
  {
    var s := NatText(n) + rest;
    assert s[0] == NatText(n)[0];
    assert IsDigit(NatText(n)[0]);
    ReadNatOfText(n, rest);
  }

  lemma ReadNegativeOfText(m: nat, rest: string)
    requires m > 0 && NoDigitStart(rest)
    ensures ReadNumber("-" + NatText(m) + rest) == Some((Number(-(m as int)), rest))
  {
    var s := "-" + NatText(m) + rest;
    var t := NatText(m) + rest;
    assert s[0] == '-';
    assert s[1..] == t;
    ReadNatOfText(m, rest);
    var k := DigitRun(t);
    assert k == |NatText(m)| > 0;
    assert DigitsValue(t[..k]) == m;
    assert t[k..] == rest;
  }

  lemma {:induction false} ReadCharsOf(str: string, rest: string)
    requires PlainString(str)
    ensures ReadChars(str + "\"" + rest) == Some((str, rest))
  {
    var s := str + "\"" + rest;
    if |str| == 0 {
      assert s == "\"" + rest;
    } else {
      assert s[0] == str[0];
      assert s[1..] == str[1..] + "\"" + rest;
      ReadCharsOf(str[1..], rest);
      assert [str[0]] + str[1..] == str;
    }
  }

  /** A printed value never starts with a closing bracket, brace or comma. */
  lemma PrintStart(j: Json)
    ensures |Print(j)| > 0
    ensures Print(j)[0] != ']' && Print(j)[0] != '}' && Print(j)[0] != ','
  {
  }

  lemma ReadPrintLiteral(j: Json, rest: string)
    requires j.Null? || j.Bool?
    ensures ReadValue(Print(j) + rest) == Some((j, rest))
  {
    var s := Print(j) + rest;
    match j
    case Null =>
      assert s[..4] == "null" && s[4..] == rest;
    case Bool(b) =>
      if b {
        assert s[..4] == "true" && s[4..] == rest;
      } else {
        assert s[..5] == "false" && s[5..] == rest;
      }
  }

  lemma ReadPrintNumber(n: int, rest: string)
    requires NoDigitStart(rest)
    ensures ReadValue(Print(Number(n)) + rest) == Some((Number(n), rest))
  {
    var s := Print(Number(n)) + rest;
    assert s[0] == IntText(n)[0];
    assert IntText(n)[0] == '-' || IsDigit(IntText(n)[0]);
    ReadNumberOfText(n, rest);
  }

  lemma ReadPrintString(str: string, rest: string)
    requires PlainString(str)
    ensures ReadValue(Print(String(str)) + rest) == Some((String(str), rest))
  {
    var s := Print(String(str)) + rest;
    assert s[1..] == str + "\"" + rest;
    ReadCharsOf(str, rest);
  }

  lemma {:induction false} ReadPrint(j: Json, rest: string)
    requires Plain(j) && NoDigitStart(rest)
    ensures ReadValue(Print(j) + rest) == Some((j, rest))
    decreases j, 1
  {
    var s := Print(j) + rest;
    match j
    case Null => ReadPrintLiteral(j, rest);
    case Bool(_) => ReadPrintLiteral(j, rest);
    case Number(n) => ReadPrintNumber(n, rest);
    case String(str) => ReadPrintString(str, rest);
    case Array(items) =>
      if |items| == 0 {
        assert PrintItems(items) == "";
        assert Print(j) == "[" + "" + "]" == "[]";
        assert s[2..] == rest;
      } else {
        assert s[1..] == PrintItems(items) + "]" + rest;
        PrintStart(items[0]);
        ReadPrintItems(items, rest);
      }
    case Object(members) =>
      if |members| == 0 {
        assert PrintMembers(members) == "";
        assert Print(j) == "{" + "" + "}" == "{}";
        assert s[2..] == rest;
      } else {
        assert s[1..] == PrintMembers(members) + "}" + rest;
        ReadPrintMembers(members, rest);
      }
  }

  lemma {:induction false} ReadPrintItems(items: seq<Json>, rest: string)
    requires |items| > 0 && PlainItems(items)
    ensures ReadItems(PrintItems(items) + "]" + rest) == Some((items, rest))
    decreases items, 0
  {
    var s := PrintItems(items) + "]" + rest;
    if |items| == 1 {
      assert s == Print(items[0]) + ("]" + rest);
      ReadPrint(items[0], "]" + rest);
      assert ("]" + rest)[1..] == rest;
      assert [items[0]] == items;
    } else {
      var tail := PrintItems(items[1..]) + "]" + rest;
      assert s == Print(items[0]) + ("," + tail);
      ReadPrint(items[0], "," + tail);
      assert ("," + tail)[1..] == tail;
      ReadPrintItems(items[1..], rest);
      assert [items[0]] + items[1..] == items;
    }
  }

  /** Reading one printed member up to what follows its value. */
  lemma ReadPrintMember(m: Member, after: string)
    requires PlainString(m.key) && Plain(m.value) && NoDigitStart(after)
    ensures var s := PrintMember(m) + after;
      && s[0] == '"'
      && ReadChars(s[1..]) == Some((m.key, ":" + Print(m.value) + after))
      && ReadValue((":" + Print(m.value) + after)[1..]) == Some((m.value, after))
    decreases m, 1
  {
    var s := PrintMember(m) + after;
    var tail := ":" + Print(m.value) + after;
    assert s == "\"" + (m.key + "\"" + tail);
    assert s[1..] == m.key + "\"" + tail;
    ReadCharsOf(m.key, tail);
    assert tail[1..] == Print(m.value) + after;
    ReadPrint(m.value, after);
  }

  lemma {:induction false} ReadPrintMembers(members: seq<Member>, rest: string)
    requires |members| > 0 && PlainMembers(members)
    ensures ReadMembers(PrintMembers(members) + "}" + rest) == Some((members, rest))
    decreases members, 0
  {
    var m := members[0];
    assert m in members;
    assert PlainString(m.key) && Plain(m.value);
    var s := PrintMembers(members) + "}" + rest;
    if |members| == 1 {
      var after := "}" + rest;
      assert s == PrintMember(m) + after;
      ReadPrintMember(m, after);
      assert after[1..] == rest;
      assert [m] == members;
    } else {
      var tail := PrintMembers(members[1..]) + "}" + rest;
      var after := "," + tail;
      assert after[1..] == tail;
      assert s == PrintMember(m) + after;
      ReadPrintMember(m, after);
      assert PlainMembers(members[1..]);
      ReadPrintMembers(members[1..], rest);
      assert [m] + members[1..] == members;
    }
  }

  /** Reading the printed text of a plain tree gives back that tree. */
  lemma ReadOfPrint(j: Json)
    requires Plain(j)
    ensures Read(Print(j)) == Some(j)
  {
    ReadPrint(j, "");
    assert Print(j) + "" == Print(j);
  }

  /** Two plain trees with the same printed text are the same tree. */
  lemma PrintInjective(a: Json, b: Json)
    requires Plain(a) && Plain(b) && Print(a) == Print(b)
    ensures a == b
  {
    ReadOfPrint(a);
    ReadOfPrint(b);
  }
}

=== FILE: policies.dfy ===
/** Policies and roles: the typed objects that own constraint trees.

A policy is an effect ("allow" or "deny", kept as the string the client
sends), an ordered list of action names and an optional constraint. It is
written as `{"effect": ..., "actions": [...], "constraint": ...}` with the
keys in that order; an absent constraint leaves the `constraint` key out.
Reading looks members up by name, so key order and unrelated members in an
incoming object do not matter.
 */
module Policies {
  import opened Wrappers
  import opened Json
  import Constraints

  datatype Policy = Policy(effect: string, actions: seq<string>, constraint: Option<Constraints.Constraint>)

  /** A role as far as this codec reads it: its name and its policies. */
  datatype Role = Role(name: string, policies: seq<Policy>)

  /** A page of roles as the service returns it: the total count and the items. */
  datatype RoleCollection = RoleCollection(total: int, items: seq<Role>)

  function EncodePolicy(p: Policy): (j: Json)
    ensures j.Object?
  {
    var head := [Member("effect", String(p.effect)), Member("actions", Array(StringArray(p.actions)))];
    match p.constraint
    case None => Object(head)
    case Some(c) => Object(head + [Member("constraint", Constraints.Encode(c))])
  }

  /** A policy is written with the keys `effect`, `actions` and, only when it
      has a constraint, `constraint`, in that order; each key holds its value. */
  lemma EncodePolicyShape(p: Policy)
    ensures var j := EncodePolicy(p);
      && Keys(j.members) == (if p.constraint.Some? then ["effect", "actions", "constraint"] else ["effect", "actions"])
      && Lookup(j.members, "effect") == Some(String(p.effect))
      && Lookup(j.members, "actions") == Some(Array(StringArray(p.actions)))
      && Lookup(j.members, "constraint") == if p.constraint.Some? then Some(Constraints.Encode(p.constraint.value)) else None
  {
  }

  /** The shape a policy object must have to be read: `effect` a string,
      `actions` an array of strings, and `constraint` absent, null or a
      readable constraint node. Other members are not looked at. */
  predicate PolicyObject(j: Json)
  {
    && j.Object?
    && StringMember(j.members, "effect")
    && ActionsMember(j.members)
    && ConstraintMember(j.members)
  }

  predicate ActionsMember(members: seq<Member>)
  {
    ArrayMember(members, "actions") &&
    forall i :: 0 <= i < |Lookup(members, "actions").value.items| ==> Lookup(members, "actions").value.items[i].String?
  }

  predicate ConstraintMember(members: seq<Member>)
  {
    Lookup(members, "constraint").None? || Lookup(members, "constraint").value.Null?
    || Constraints.Decode(Lookup(members, "constraint").value).Success?
  }

  /** Reads a policy object. `effect` and `actions` are required; a missing or
      null `constraint` means the policy is unconstrained. */
  function DecodePolicy(j: Json): (r: Result<Policy, DecodeError>)
    ensures r.Success? <==> PolicyObject(j)
    ensures r.Success? ==> Lookup(j.members, "effect") == Some(String(r.value.effect))
    ensures r.Success? ==> Lookup(j.members, "actions") == Some(Array(StringArray(r.value.actions)))
    ensures r.Success? ==> (r.value.constraint.None? <==> Lookup(j.members, "constraint") in {None, Some(Null)})
    ensures r.Success? && r.value.constraint.Some? ==>
      Constraints.Decode(Lookup(j.members, "constraint").value) == Success(r.value.constraint.value)
  {
    if !j.Object? then Failure(WrongType("policy"))
    else
      var effect :- RequiredString(j.members, "effect");
      var actions :- DecodeActions(j.members);
      var constraint :- DecodeOptionalConstraint(j.members);
      Success(Policy(effect, actions, constraint))
  }

  function DecodeActions(members: seq<Member>): (r: Result<seq<string>, DecodeError>)
    ensures r.Success? <==> ActionsMember(members)
    ensures r.Success? ==> Lookup(members, "actions") == Some(Array(StringArray(r.value)))
  {
    match Lookup(members, "actions")
    case None => Failure(MissingMember("actions"))
    case Some(Array(items)) =>
      (match ReadStrings(items)
       case None => Failure(WrongType("actions"))
       case Some(xs) => Success(xs))
    case Some(_) => Failure(WrongType("actions"))
  }

  function DecodeOptionalConstraint(members: seq<Member>): (r: Result<Option<Constraints.Constraint>, DecodeError>)
    ensures r.Success? <==> ConstraintMember(members)
    ensures r.Success? ==> (r.value.None? <==> Lookup(members, "constraint") in {None, Some(Null)})
    ensures r.Success? && r.value.Some? ==>
      Constraints.Decode(Lookup(members, "constraint").value) == Success(r.value.value)
  {
    match Lookup(members, "constraint")
    case None => Success(None)
    case Some(Null) => Success(None)
    case Some(c) =>
      match Constraints.Decode(c)
      case Failure(e) => Failure(e)
      case Success(tree) => Success(Some(tree))
  }

  /** Reading back what was written gives the policy that was written. */
  lemma DecodeEncodePolicy(p: Policy)
    ensures DecodePolicy(EncodePolicy(p)) == Success(p)
  {
    var j := EncodePolicy(p);
    EncodePolicyShape(p);
    ReadStringsOfStringArray(p.actions);
    if p.constraint.Some? {
      Constraints.DecodeEncode(p.constraint.value);
    }
  }

  /** Reading back a list of written policies gives the list that was written. */
  lemma DecodeEncodePolicies(ps: seq<Policy>)
    ensures DecodeEach(DecodePolicy, EncodeEach(EncodePolicy, ps)) == Success(ps)
  {
    forall i | 0 <= i < |ps| {
      DecodeEncodePolicy(ps[i]);
    }
    DecodeEachEncodeEach(EncodePolicy, DecodePolicy, ps);
  }

  function EncodeRole(role: Role): (j: Json)
    ensures j.Object? && Keys(j.members) == ["name", "policies"]
  {
    Object([Member("name", String(role.name)), Member("policies", Array(EncodeEach(EncodePolicy, role.policies)))])
  }

  /** The shape a role object must have to be read: `name` a string and
      `policies` an array of policy objects. */
  predicate RoleObject(j: Json)
  {
    && j.Object?
    && StringMember(j.members, "name")
    && PolicyArray(Lookup(j.members, "policies"))
  }

  predicate PolicyArray(v: Option<Json>)
  {
    v.Some? && v.value.Array? && forall i :: 0 <= i < |v.value.items| ==> PolicyObject(v.value.items[i])
  }

  /** Reads a role; its i-th policy is read from the i-th element of `policies`. */
  function DecodeRole(j: Json): (r: Result<Role, DecodeError>)
    ensures r.Success? <==> RoleObject(j)
    ensures r.Success? ==> j.Object? && Lookup(j.members, "name") == Some(String(r.value.name))
    ensures r.Success? ==>
      Lookup(j.members, "policies").Some? && Lookup(j.members, "policies").value.Array? &&
      var items := Lookup(j.members, "policies").value.items;
      |r.value.policies| == |items| &&
      forall i :: 0 <= i < |items| ==> DecodePolicy(items[i]) == Success(r.value.policies[i])
  {
    if !j.Object? then Failure(WrongType("role"))
    else
      var name :- RequiredString(j.members, "name");
      var policies :- DecodePolicyArray(Lookup(j.members, "policies"));
      Success(Role(name, policies))
  }

  /** Reads the value of a `policies` member, element by element. */
  function DecodePolicyArray(v: Option<Json>): (r: Result<seq<Policy>, DecodeError>)
    ensures r.Success? <==> PolicyArray(v)
    ensures r.Success? ==> DecodeEach(DecodePolicy, v.value.items) == r
  {
    match v
    case Some(Array(items)) => DecodeEach(DecodePolicy, items)
    case None => Failure(MissingMember("policies"))
    case Some(_) => Failure(WrongType("policies"))
  }

  lemma DecodeEncodeRole(role: Role)
    ensures DecodeRole(EncodeRole(role)) == Success(role)
  {
    DecodeEncodePolicies(role.policies);
  }

  /** The shape a page of roles must have to be read: `total` a number and
      `items` an array of role objects. */
  predicate RoleCollectionObject(j: Json)
  {
    && j.Object?
    && Lookup(j.members, "total").Some? && Lookup(j.members, "total").value.Number?
    && RoleArray(Lookup(j.members, "items"))
  }

  predicate RoleArray(v: Option<Json>)
  {
    v.Some? && v.value.Array? && forall i :: 0 <= i < |v.value.items| ==> RoleObject(v.value.items[i])
  }

  /** Reads a page of roles: `total` and the `items` array, item order kept. */
  function DecodeRoleCollection(j: Json): (r: Result<RoleCollection, DecodeError>)
    ensures r.Success? <==> RoleCollectionObject(j)
    ensures r.Success? ==> j.Object? && Lookup(j.members, "total") == Some(Number(r.value.total))
    ensures r.Success? ==>
      Lookup(j.members, "items").Some? && Lookup(j.members, "items").value.Array? &&
      var items := Lookup(j.members, "items").value.items;
      |r.value.items| == |items| &&
      forall i :: 0 <= i < |items| ==> DecodeRole(items[i]) == Success(r.value.items[i])
  {
    if !j.Object? then Failure(WrongType("collection"))
    else
      match Lookup(j.members, "total")
      case Some(Number(total)) =>
        var roles :- DecodeRoleArray(Lookup(j.members, "items"));
        Success(RoleCollection(total, roles))
      case None => Failure(MissingMember("total"))
      case Some(_) => Failure(WrongType("total"))
  }

  /** Reads the value of an `items` member, element by element. */
  function DecodeRoleArray(v: Option<Json>): (r: Result<seq<Role>, DecodeError>)
    ensures r.Success? <==> RoleArray(v)
    ensures r.Success? ==> DecodeEach(DecodeRole, v.value.items) == r
  {
    match v
    case Some(Array(items)) => DecodeEach(DecodeRole, items)
    case None => Failure(MissingMember("items"))
    case Some(_) => Failure(WrongType("items"))
  }

  function EncodeRoleCollection(page: RoleCollection): (j: Json)
    ensures j.Object? && Keys(j.members) == ["total", "items"]
  {
    Object([Member("total", Number(page.total)), Member("items", Array(EncodeEach(EncodeRole, page.items)))])
  }

  /** Reading back a list of written roles gives the list that was written. */
  lemma DecodeEncodeRoles(rs: seq<Role>)
    ensures DecodeEach(DecodeRole, EncodeEach(EncodeRole, rs)) == Success(rs)
  {
    forall i | 0 <= i < |rs| {
      DecodeEncodeRole(rs[i]);
    }
    DecodeEachEncodeEach(EncodeRole, DecodeRole, rs);
  }

  /** Reading back a written page of roles gives the page that was written. */
  lemma DecodeEncodeRoleCollection(page: RoleCollection)
    ensures DecodeRoleCollection(EncodeRoleCollection(page)) == Success(page)
  {
    DecodeEncodeRoles(page.items);
    var ms := EncodeRoleCollection(page).members;
    assert Lookup(ms, "total") == Some(Number(page.total));
    assert Lookup(ms, "items") == Some(Array(EncodeEach(EncodeRole, page.items)));
    assert DecodeRoleArray(Lookup(ms, "items")) == Success(page.items);
  }

  /** Members other than `effect`, `actions` and `constraint`, wherever they
      sit in the object, do not change how a policy reads. */
  lemma DecodePolicyAmongOthers(before: seq<Member>, members: seq<Member>, after: seq<Member>)
    requires "effect" !in Keys(before) && "effect" !in Keys(after)
    requires "actions" !in Keys(before) && "actions" !in Keys(after)
    requires "constraint" !in Keys(before) && "constraint" !in Keys(after)
    ensures DecodePolicy(Object(before + members + after)) == DecodePolicy(Object(members))
  {
    var all := before + members + after;
    LookupAmongOthers(before, members, after, "effect");
    LookupAmongOthers(before, members, after, "actions");
    LookupAmongOthers(before, members, after, "constraint");
    DecodePolicyOfLookups(all, members);
  }

  /** Members other than `name` and `policies` (a role's `sys`, `description`
      or `permissions`) do not change how a role reads. */
  lemma DecodeRoleAmongOthers(before: seq<Member>, members: seq<Member>, after: seq<Member>)
    requires "name" !in Keys(before) && "name" !in Keys(after)
    requires "policies" !in Keys(before) && "policies" !in Keys(after)
    ensures DecodeRole(Object(before + members + after)) == DecodeRole(Object(members))
  {
    var all := before + members + after;
    LookupAmongOthers(before, members, after, "name");
    LookupAmongOthers(before, members, after, "policies");
    DecodeRoleOfLookups(all, members);
  }

  /** Members other than `total` and `items` (a page's `sys`, `skip` or
      `limit`) do not change how a page of roles reads. */
  lemma DecodeRoleCollectionAmongOthers(before: seq<Member>, members: seq<Member>, after: seq<Member>)
    requires "total" !in Keys(before) && "total" !in Keys(after)
    requires "items" !in Keys(before) && "items" !in Keys(after)
    ensures DecodeRoleCollection(Object(before + members + after)) == DecodeRoleCollection(Object(members))
  {
    var all := before + members + after;
    LookupAmongOthers(before, members, after, "total");
    LookupAmongOthers(before, members, after, "items");
    DecodeRoleCollectionOfLookups(all, members);
  }

  /** A policy reads from its three lookups alone. */
  lemma DecodePolicyOfLookups(a: seq<Member>, b: seq<Member>)
    requires Lookup(a, "effect") == Lookup(b, "effect")
    requires Lookup(a, "actions") == Lookup(b, "actions")
    requires Lookup(a, "constraint") == Lookup(b, "constraint")
    ensures DecodePolicy(Object(a)) == DecodePolicy(Object(b))
  {
  }

  lemma DecodeRoleOfLookups(a: seq<Member>, b: seq<Member>)
    requires Lookup(a, "name") == Lookup(b, "name")
    requires Lookup(a, "policies") == Lookup(b, "policies")
    ensures DecodeRole(Object(a)) == DecodeRole(Object(b))
  {
  }

  lemma DecodeRoleCollectionOfLookups(a: seq<Member>, b: seq<Member>)
    requires Lookup(a, "total") == Lookup(b, "total")
    requires Lookup(a, "items") == Lookup(b, "items")
    ensures DecodeRoleCollection(Object(a)) == DecodeRoleCollection(Object(b))
  {
  }
}

=== FILE: wire_examples.dfy ===
/** The exact wire shapes the management client's tests fix, stated about
the codec model: the serialized policy of the constraint test, the serialized
editor interface of the update test, and what reading roles and editor
interfaces gives back. The tests compare serialized text; since printing is
injective on trees whose strings are plain (`JsonText.PrintInjective`), the
expected text is pinned down by the expected tree stated here.
 */
module WireExamples {
  import opened Wrappers
  import opened Json
  import JsonText
  import C = Constraints
  import P = Policies
  import E = EditorInterfaces

  /** The policy the constraint serialization test builds. */
  function SamplePolicy(): P.Policy
  {
    P.Policy(
      "allow",
      ["create", "delete"],
      Some(C.And([
        C.Equals("sys.type", "Entry"),
        C.Equals("sys.createdBy.sys.id", "User.current()"),
        C.Not(C.Equals("sys.contentType.sys.id", "123"))])))
  }

  /** The `{"equals": [{"doc": p}, v]}` node, written out. */
  function EqualsNode(p: string, v: string): Json
  {
    Object([Member("equals", Array([Object([Member("doc", String(p))]), String(v)]))])
  }

  /** The sample policy serializes to the expected tree: keys
      `effect`, `actions`, `constraint` in that order, actions in the order
      given, the `and` children in the order added, each `equals` with its
      property wrapped in `doc`, and the `not` around its single child. */
  lemma ConstraintsSerializeCorrectly()
    ensures P.EncodePolicy(SamplePolicy()) ==
      Object([
        Member("effect", String("allow")),
        Member("actions", Array([String("create"), String("delete")])),
        Member("constraint", Object([Member("and", Array([
          EqualsNode("sys.type", "Entry"),
          EqualsNode("sys.createdBy.sys.id", "User.current()"),
          Object([Member("not", EqualsNode("sys.contentType.sys.id", "123"))])]))]))])
  {
    var cs := SamplePolicy().constraint.value.children;
    assert StringArray(["create", "delete"]) == [String("create"), String("delete")];
    assert C.Encode(cs[2]) == Object([Member("not", EqualsNode("sys.contentType.sys.id", "123"))]);
    assert C.EncodeAll(cs) == [C.Encode(cs[0]), C.Encode(cs[1]), C.Encode(cs[2])];
  }

  /** The editor interface the update test sends. */
  function SampleEditorInterface(): E.EditorInterface
  {
    E.EditorInterface([
      E.Control("field1", E.SingleLineWidget, None),
      E.Control("field2", E.BooleanWidget, Some(E.BooleanSettings(Some("Help me here!"), Some("Truthy"), Some("Falsy"))))])
  }

  /** The sample editor interface serializes with controls in list order,
      `fieldId` before `widgetId`, no `settings` key on the control without
      settings, and the boolean settings as `trueLabel`, `falseLabel`,
      `helpText` and nothing else. */
  lemma EditorInterfaceSerializesCorrectly()
    ensures E.EncodeEditorInterface(SampleEditorInterface()) ==
      Object([Member("controls", Array([
        Object([Member("fieldId", String("field1")), Member("widgetId", String("singleLine"))]),
        Object([Member("fieldId", String("field2")), Member("widgetId", String("boolean")),
          Member("settings", Object([
            Member("trueLabel", String("Truthy")),
            Member("falseLabel", String("Falsy")),
            Member("helpText", String("Help me here!"))]))])]))])
  {
    TwoControlsShape("field1", E.SingleLineWidget, "field2", E.BooleanWidget, "Help me here!", "Truthy", "Falsy");
  }

  /** An editor interface of a control without settings followed by a control
      with all three boolean settings set is written with the controls in that
      order, the first without a `settings` key and the second with its
      labels and help text in the order `trueLabel`, `falseLabel`, `helpText`. */
  lemma TwoControlsShape(field1: string, widget1: string, field2: string, widget2: string,
                         help: string, trueLabel: string, falseLabel: string)
    ensures E.EncodeEditorInterface(E.EditorInterface([
        E.Control(field1, widget1, None),
        E.Control(field2, widget2, Some(E.BooleanSettings(Some(help), Some(trueLabel), Some(falseLabel))))])) ==
      Object([Member("controls", Array([
        Object([Member("fieldId", String(field1)), Member("widgetId", String(widget1))]),
        Object([Member("fieldId", String(field2)), Member("widgetId", String(widget2)),
          Member("settings", Object([
            Member("trueLabel", String(trueLabel)),
            Member("falseLabel", String(falseLabel)),
            Member("helpText", String(help))]))])]))])
  {
    var c0 := E.Control(field1, widget1, None);
    var c1 := E.Control(field2, widget2, Some(E.BooleanSettings(Some(help), Some(trueLabel), Some(falseLabel))));
    BooleanSettingsShape(help, trueLabel, falseLabel);
    var head0 := [Member("fieldId", String(field1)), Member("widgetId", String(widget1))];
    assert head0 + [] == head0;
    var head1 := [Member("fieldId", String(field2)), Member("widgetId", String(widget2))];
    var settings := E.EncodeSettings(c1.settings.value);
    assert head1 + [Member("settings", settings)] ==
      [Member("fieldId", String(field2)), Member("widgetId", String(widget2)), Member("settings", settings)];
    assert EncodeEach(E.EncodeControl, [c0, c1]) == [E.EncodeControl(c0), E.EncodeControl(c1)];
  }

  /** Boolean settings with all three values set are written as `trueLabel`,
      `falseLabel`, `helpText`, in that order and nothing else. */
  lemma BooleanSettingsShape(help: string, trueLabel: string, falseLabel: string)
    ensures E.EncodeSettings(E.BooleanSettings(Some(help), Some(trueLabel), Some(falseLabel))) ==
      Object([
        Member("trueLabel", String(trueLabel)),
        Member("falseLabel", String(falseLabel)),
        Member("helpText", String(help))])
  {
    assert E.OptionalMember("trueLabel", E.StringValue(Some(trueLabel))) == [Member("trueLabel", String(trueLabel))];
    assert E.OptionalMember("falseLabel", E.StringValue(Some(falseLabel))) == [Member("falseLabel", String(falseLabel))];
    assert E.OptionalMember("helpText", E.StringValue(Some(help))) == [Member("helpText", String(help))];
  }

  /** An `and` node whose first element is the `equals` node of `p` and `v`. */
  function AndNode(p: string, v: string, rest: seq<Json>): Json
  {
    Object([Member("and", Array([EqualsNode(p, v)] + rest))])
  }

  /** Reading an `and` node gives an `And` whose element 0 is the `Equals`
      taking its property from the `doc` wrapper and its value from the bare
      second operand; the node reads whenever every later element reads. */
  lemma AndNodeFirstChild(p: string, v: string, rest: seq<Json>)
    ensures C.Decode(AndNode(p, v, rest)).Success? <==>
      forall i :: 0 <= i < |rest| ==> C.Decode(rest[i]).Success?
    ensures C.Decode(AndNode(p, v, rest)).Success? ==>
      var c := C.Decode(AndNode(p, v, rest)).value;
      c.And? && |c.children| == |rest| + 1 && c.children[0] == C.Equals(p, v)
  {
    var items := [EqualsNode(p, v)] + rest;
    C.DecodeIffEncode(EqualsNode(p, v), C.Equals(p, v));
    assert C.Decode(items[0]) == Success(C.Equals(p, v));
    assert forall i :: 0 <= i < |rest| ==> items[i + 1] == rest[i];
    if forall i :: 0 <= i < |rest| ==> C.Decode(rest[i]).Success? {
      assert forall i :: 0 <= i < |items| ==> C.Decode(items[i]).Success? by {
        forall i | 0 <= i < |items|
          ensures C.Decode(items[i]).Success?
        {
          if i > 0 {
            assert items[i] == rest[i - 1];
          }
        }
      }
      C.DecodeAndChildren(items);
    }
  }

  /** A policy object whose `constraint` member is such an `and` node reads,
      with that `And` as its constraint, element 0 being the `Equals` of `p` and `v`. */
  lemma PolicyAndConstraintFirstChild(j: Json, p: string, v: string, rest: seq<Json>)
    requires P.PolicyObject(j)
    requires Lookup(j.members, "constraint") == Some(AndNode(p, v, rest))
    ensures P.DecodePolicy(j).Success?
    ensures var c := P.DecodePolicy(j).value.constraint;
      c.Some? && c.value.And? && |c.value.children| > 0 && c.value.children[0] == C.Equals(p, v)
  {
    AndNodeFirstChild(p, v, rest);
  }

  /** The role test: a role object sent with the name `Developer` reads with
      that name, and when its second policy's constraint is an `and` node
      headed by `{"equals":[{"doc":"sys.type"},"Asset"]}`, that policy's
      constraint is an `And` whose element 0 is `Equals("sys.type", "Asset")`. */
  lemma RolesDeserializeCorrectly(j: Json, policy: Json, rest: seq<Json>)
    requires P.RoleObject(j)
    requires Lookup(j.members, "name") == Some(String("Developer"))
    requires |Lookup(j.members, "policies").value.items| > 1
    requires Lookup(j.members, "policies").value.items[1] == policy
    requires Lookup(policy.members, "constraint") == Some(AndNode("sys.type", "Asset", rest))
    ensures P.DecodeRole(j).Success?
    ensures P.DecodeRole(j).value.name == "Developer"
    ensures var c := P.DecodeRole(j).value.policies[1].constraint;
      c.Some? && c.value.And? && |c.value.children| > 0 && c.value.children[0] == C.Equals("sys.type", "Asset")
  {
    var role := P.DecodeRole(j).value;
    assert P.DecodePolicy(policy) == Success(role.policies[1]);
    PolicyAndConstraintFirstChild(policy, "sys.type", "Asset", rest);
  }

  /** The first policy of the role object `role`; a role object's policies
      are an array of policy objects. */
  function FirstPolicy(role: Json): Json
    requires P.RoleObject(role) && |Lookup(role.members, "policies").value.items| > 0
  {
    Lookup(role.members, "policies").value.items[0]
  }

  /** The role collection test: a page object sent with total 7 reads with
      total 7; item 0, sent as `Author` with a first policy whose first
      action is `create`, reads with that name and that first action; item
      4, sent as `Translator 1` with a first policy whose constraint is an
      `and` node headed by an `equals` on `Entry`, reads with that name and
      with that `Equals` as element 0 of the `And`. */
  lemma RolesCollectionDeserializesCorrectly(j: Json, actions: seq<Json>, p: string, rest: seq<Json>)
    requires P.RoleCollectionObject(j)
    requires Lookup(j.members, "total") == Some(Number(7))
    requires |Lookup(j.members, "items").value.items| > 4
    requires var author := Lookup(j.members, "items").value.items[0];
      && Lookup(author.members, "name") == Some(String("Author"))
      && |Lookup(author.members, "policies").value.items| > 0
      && Lookup(FirstPolicy(author).members, "actions") == Some(Array([String("create")] + actions))
    requires var translator := Lookup(j.members, "items").value.items[4];
      && Lookup(translator.members, "name") == Some(String("Translator 1"))
      && |Lookup(translator.members, "policies").value.items| > 0
      && Lookup(FirstPolicy(translator).members, "constraint") == Some(AndNode(p, "Entry", rest))
    ensures P.DecodeRoleCollection(j).Success?
    ensures var page := P.DecodeRoleCollection(j).value;
      && page.total == 7
      && |page.items| > 4
      && page.items[0].name == "Author"
      && |page.items[0].policies| > 0 && |page.items[0].policies[0].actions| > 0
      && page.items[0].policies[0].actions[0] == "create"
      && page.items[4].name == "Translator 1"
      && |page.items[4].policies| > 0
      && var c := page.items[4].policies[0].constraint;
      c.Some? && c.value.And? && |c.value.children| > 0 && c.value.children[0] == C.Equals(p, "Entry")
  {
    var page := P.DecodeRoleCollection(j).value;
    var items := Lookup(j.members, "items").value.items;
    assert P.DecodeRole(items[0]) == Success(page.items[0]);
    assert P.DecodePolicy(FirstPolicy(items[0])) == Success(page.items[0].policies[0]);
    assert StringArray(page.items[0].policies[0].actions) == [String("create")] + actions;
    assert StringArray(page.items[0].policies[0].actions)[0] == String("create");
    assert P.DecodeRole(items[4]) == Success(page.items[4]);
    assert P.DecodePolicy(FirstPolicy(items[4])) == Success(page.items[4].policies[0]);
    PolicyAndConstraintFirstChild(FirstPolicy(items[4]), p, "Entry", rest);
  }

  /** Rating settings carrying `numberOfStars` and `helpText` read as rating
      settings with that star count and that help text. */
  lemma RatingSettingsDecode(ms: seq<Member>, stars: int, help: string)
    requires Lookup(ms, "numberOfStars") == Some(Number(stars))
    requires Lookup(ms, "helpText") == Some(String(help))
    ensures E.DecodeSettings(E.RatingWidget, Object(ms)) == Success(E.RatingSettings(Some(help), Some(stars)))
    ensures E.HelpText(E.DecodeSettings(E.RatingWidget, Object(ms)).value) == Some(help)
  {
  }

  /** Date-picker settings whose `format` is `"time"` read with the `Time` format. */
  lemma DatePickerSettingsDecode(ms: seq<Member>)
    requires Lookup(ms, "format") == Some(String("time"))
    requires NullableString(ms, "helpText")
    ensures E.DecodeSettings(E.DatePickerWidget, Object(ms)) ==
      Success(E.DatePickerSettings(OptionalString(ms, "helpText").value, Some(E.Time)))
  {
    assert E.ParseFormat("time") == Success(E.Time);
  }

  /** A control object with settings reads with the settings variant its
      widget id selects; a rating control sent with 7 stars and its help text
      carries exactly those, a date-picker control sent with `"time"` the
      `Time` format. */
  lemma ControlSettingsOfWidget(control: Json, widgetId: string, settings: seq<Member>)
    requires E.ControlObject(control)
    requires Lookup(control.members, "widgetId") == Some(String(widgetId))
    requires Lookup(control.members, "settings") == Some(Object(settings))
    ensures E.DecodeControl(control).Success?
    ensures var s := E.DecodeControl(control).value.settings;
      && s.Some?
      && (widgetId == E.BooleanWidget ==> s.value.BooleanSettings?)
      && (widgetId == E.RatingWidget ==> s.value.RatingSettings?)
      && (widgetId == E.DatePickerWidget ==> s.value.DatePickerSettings?)
    ensures (widgetId == E.RatingWidget
      && Lookup(settings, "numberOfStars") == Some(Number(7))
      && Lookup(settings, "helpText") == Some(String("How many do you likez?"))) ==>
      E.DecodeControl(control).value.settings == Some(E.RatingSettings(Some("How many do you likez?"), Some(7)))
    ensures widgetId == E.DatePickerWidget && Lookup(settings, "format") == Some(String("time")) ==>
      E.DecodeControl(control).value.settings.value.format == Some(E.Time)
  {
    var c := E.DecodeControl(control).value;
    assert c.widgetId == widgetId;
    if widgetId == E.RatingWidget && Lookup(settings, "numberOfStars") == Some(Number(7))
      && Lookup(settings, "helpText") == Some(String("How many do you likez?")) {
      RatingSettingsDecode(settings, 7, "How many do you likez?");
    }
    if widgetId == E.DatePickerWidget && Lookup(settings, "format") == Some(String("time")) {
      assert E.FormatLiteral(E.Time) == "time";
    }
  }

  /** The `widgetId` and `settings` a control object was sent with. */
  predicate SentWith(control: Json, widgetId: string, settings: seq<Member>)
  {
    control.Object?
    && Lookup(control.members, "widgetId") == Some(String(widgetId))
    && Lookup(control.members, "settings") == Some(Object(settings))
  }

  /** The editor-interface read tests: an editor interface object sent with
      seven controls reads with seven; control 4, a `boolean` control, reads
      with boolean settings; control 5, a `rating` control sent with 7 stars
      and the help text "How many do you likez?", reads with exactly those
      rating settings; control 6, a `datePicker` control sent with format
      `"time"`, reads with date-picker settings in the `Time` format. */
  lemma GetEditorInterfaceReturnsCorrectObject(j: Json, boolean: seq<Member>, rating: seq<Member>, datePicker: seq<Member>)
    requires E.EditorInterfaceObject(j)
    requires |Lookup(j.members, "controls").value.items| == 7
    requires SentWith(Lookup(j.members, "controls").value.items[4], E.BooleanWidget, boolean)
    requires SentWith(Lookup(j.members, "controls").value.items[5], E.RatingWidget, rating)
    requires Lookup(rating, "numberOfStars") == Some(Number(7))
    requires Lookup(rating, "helpText") == Some(String("How many do you likez?"))
    requires SentWith(Lookup(j.members, "controls").value.items[6], E.DatePickerWidget, datePicker)
    requires Lookup(datePicker, "format") == Some(String("time"))
    ensures E.DecodeEditorInterface(j).Success?
    ensures var controls := E.DecodeEditorInterface(j).value.controls;
      && |controls| == 7
      && controls[4].settings.Some? && controls[4].settings.value.BooleanSettings?
      && controls[5].settings == Some(E.RatingSettings(Some("How many do you likez?"), Some(7)))
      && controls[6].settings.Some? && controls[6].settings.value.DatePickerSettings?
      && controls[6].settings.value.format == Some(E.Time)
  {
    var items := Lookup(j.members, "controls").value.items;
    var controls := E.DecodeEditorInterface(j).value.controls;
    ControlSettingsOfWidget(items[4], E.BooleanWidget, boolean);
    ControlSettingsOfWidget(items[5], E.RatingWidget, rating);
    ControlSettingsOfWidget(items[6], E.DatePickerWidget, datePicker);
    assert E.DecodeControl(items[4]) == Success(controls[4]);
    assert E.DecodeControl(items[5]) == Success(controls[5]);
    assert E.DecodeControl(items[6]) == Success(controls[6]);
  }

  /** Every string a constraint carries is plain. */
  predicate PlainConstraint(c: C.Constraint)
  {
    match c
    case Equals(p, v) => JsonText.PlainString(p) && JsonText.PlainString(v)
    case Not(inner) => PlainConstraint(inner)
    case And(cs) => forall i :: 0 <= i < |cs| ==> PlainConstraint(cs[i])
    case Or(cs) => forall i :: 0 <= i < |cs| ==> PlainConstraint(cs[i])
  }

  /** Encoding a constraint whose strings are plain gives a plain tree. */
  lemma {:induction false} EncodePlain(c: C.Constraint)
    requires PlainConstraint(c)
    ensures JsonText.Plain(C.Encode(c))
    decreases c, 1
  {
    match c
    case Equals(p, v) =>
      assert JsonText.PlainString("equals") && JsonText.PlainString("doc");
      assert JsonText.Plain(Object([Member("doc", String(p))]));
      assert JsonText.Plain(C.EqualsOperands(p, v));
    case Not(inner) =>
      EncodePlain(inner);
      assert JsonText.PlainString("not");
    case And(cs) =>
      EncodeAllPlain(cs);
      assert JsonText.PlainString("and");
      assert JsonText.Plain(Array(C.EncodeAll(cs)));
    case Or(cs) =>
      EncodeAllPlain(cs);
      assert JsonText.PlainString("or");
      assert JsonText.Plain(Array(C.EncodeAll(cs)));
  }

  lemma {:induction false} EncodeAllPlain(cs: seq<C.Constraint>)
    requires forall i :: 0 <= i < |cs| ==> PlainConstraint(cs[i])
    ensures JsonText.PlainItems(C.EncodeAll(cs))
    decreases cs, 0
  {
    forall i | 0 <= i < |cs| ensures JsonText.Plain(C.Encode(cs[i])) {
      EncodePlain(cs[i]);
    }
  }

  /** Encoding a policy whose strings are plain gives a plain tree, so the
      policy's text is read back as its tree (`JsonText.ReadOfPrint`). */
  lemma EncodePolicyPlain(p: P.Policy)
    requires JsonText.PlainString(p.effect)
    requires forall i :: 0 <= i < |p.actions| ==> JsonText.PlainString(p.actions[i])
    requires p.constraint.Some? ==> PlainConstraint(p.constraint.value)
    ensures JsonText.Plain(P.EncodePolicy(p))
  {
    var j := P.EncodePolicy(p);
    assert JsonText.PlainString("effect") && JsonText.PlainString("actions") && JsonText.PlainString("constraint");
    assert JsonText.Plain(Array(StringArray(p.actions)));
    if p.constraint.Some? {
      EncodePlain(p.constraint.value);
    }
    assert forall i :: 0 <= i < |j.members| ==> JsonText.PlainString(j.members[i].key) && JsonText.Plain(j.members[i].value);
  }

  lemma SamplePolicyPlain()
    ensures JsonText.PlainString(SamplePolicy().effect)
    ensures forall i :: 0 <= i < |SamplePolicy().actions| ==> JsonText.PlainString(SamplePolicy().actions[i])
    ensures PlainConstraint(SamplePolicy().constraint.value)
  {
    assert JsonText.PlainString("allow") by {}
    assert JsonText.PlainString("create") by {}
    assert JsonText.PlainString("delete") by {}
    assert JsonText.PlainString("sys.type") by {}
    assert JsonText.PlainString("Entry") by {}
    assert JsonText.PlainString("sys.createdBy.sys.id") by {}
    assert JsonText.PlainString("User.current()") by {}
    assert JsonText.PlainString("sys.contentType.sys.id") by {}
    assert JsonText.PlainString("123") by {}
    SampleShapePlain("sys.type", "Entry", "sys.createdBy.sys.id", "User.current()", "sys.contentType.sys.id", "123");
  }

  lemma SampleShapePlain(p1: string, v1: string, p2: string, v2: string, p3: string, v3: string)
    requires JsonText.PlainString(p1) && JsonText.PlainString(v1)
    requires JsonText.PlainString(p2) && JsonText.PlainString(v2)
    requires JsonText.PlainString(p3) && JsonText.PlainString(v3)
    ensures PlainConstraint(C.And([C.Equals(p1, v1), C.Equals(p2, v2), C.Not(C.Equals(p3, v3))]))
  {
    var cs := [C.Equals(p1, v1), C.Equals(p2, v2), C.Not(C.Equals(p3, v3))];
    assert PlainConstraint(cs[0]) && PlainConstraint(cs[1]) && PlainConstraint(cs[2]);
  }

  /** The strings of the sample policy are plain, so the expected text of the
      constraint test is printed by the expected tree and by no other plain tree. */
  lemma SamplePolicyTextDeterminesTree(t: Json)
    requires JsonText.Plain(t)
    ensures JsonText.Print(t) == JsonText.Print(P.EncodePolicy(SamplePolicy())) <==> t == P.EncodePolicy(SamplePolicy())
  {
    SamplePolicyPlain();
    EncodePolicyPlain(SamplePolicy());
    if JsonText.Print(t) == JsonText.Print(P.EncodePolicy(SamplePolicy())) {
      JsonText.PrintInjective(t, P.EncodePolicy(SamplePolicy()));
    }
  }

  /** An editor interface of the two-control shape whose strings are all
      plain encodes to a plain tree. */
  lemma TwoControlsPlain(field1: string, widget1: string, field2: string, widget2: string,
                         help: string, trueLabel: string, falseLabel: string)
    requires JsonText.PlainString(field1) && JsonText.PlainString(widget1)
    requires JsonText.PlainString(field2) && JsonText.PlainString(widget2)
    requires JsonText.PlainString(help) && JsonText.PlainString(trueLabel) && JsonText.PlainString(falseLabel)
    ensures JsonText.Plain(E.EncodeEditorInterface(E.EditorInterface([
      E.Control(field1, widget1, None),
      E.Control(field2, widget2, Some(E.BooleanSettings(Some(help), Some(trueLabel), Some(falseLabel))))])))
  {
    TwoControlsShape(field1, widget1, field2, widget2, help, trueLabel, falseLabel);
    assert JsonText.PlainString("controls") by {}
    assert JsonText.PlainString("fieldId") by {}
    assert JsonText.PlainString("widgetId") by {}
    assert JsonText.PlainString("settings") by {}
    assert JsonText.PlainString("trueLabel") by {}
    assert JsonText.PlainString("falseLabel") by {}
    assert JsonText.PlainString("helpText") by {}
    var settings := Object([
      Member("trueLabel", String(trueLabel)),
      Member("falseLabel", String(falseLabel)),
      Member("helpText", String(help))]);
    assert JsonText.Plain(settings);
    var c0 := Object([Member("fieldId", String(field1)), Member("widgetId", String(widget1))]);
    var c1 := Object([Member("fieldId", String(field2)), Member("widgetId", String(widget2)), Member("settings", settings)]);
    assert JsonText.Plain(c0) && JsonText.Plain(c1);
    assert JsonText.PlainItems([c0, c1]);
    assert JsonText.Plain(Object([Member("controls", Array([c0, c1]))]));
  }

  /** The sample editor interface encodes to a plain tree. */
  lemma SampleEditorInterfacePlain()
    ensures JsonText.Plain(E.EncodeEditorInterface(SampleEditorInterface()))
  {
    assert JsonText.PlainString("field1") by {}
    assert JsonText.PlainString("field2") by {}
    assert JsonText.PlainString(E.SingleLineWidget) by {}
    assert JsonText.PlainString(E.BooleanWidget) by {}
    assert JsonText.PlainString("Help me here!") by {}
    assert JsonText.PlainString("Truthy") by {}
    assert JsonText.PlainString("Falsy") by {}
    TwoControlsPlain("field1", E.SingleLineWidget, "field2", E.BooleanWidget, "Help me here!", "Truthy", "Falsy");
  }

  /** The strings of the sample editor interface are plain, so the expected
      text of the update test is printed by the expected tree and by no other
      plain tree. */
  lemma EditorInterfaceTextDeterminesTree(t: Json)
    requires JsonText.Plain(t)
    ensures JsonText.Print(t) == JsonText.Print(E.EncodeEditorInterface(SampleEditorInterface())) <==>
      t == E.EncodeEditorInterface(SampleEditorInterface())
  {
    SampleEditorInterfacePlain();
    if JsonText.Print(t) == JsonText.Print(E.EncodeEditorInterface(SampleEditorInterface())) {
      JsonText.PrintInjective(t, E.EncodeEditorInterface(SampleEditorInterface()));
    }
  }
}

=== FILE: wrappers.dfy ===
/** The two outcome types every decoder in this model returns: an `Option`
for a member or setting that may be unset, and a `Result` that carries
either the decoded value or the `DecodeError` saying why reading stopped. */
module Wrappers {

  datatype Option<+T> = None | Some(value: T) {

    predicate IsFailure() {
      None?
    }

    function PropagateFailure<U>(): Option<U>
      requires None?
    {
      None
    }

    function Extract(): T
      requires Some?
    {
      value
    }
  }

  datatype Result<+T, +E> = Success(value: T) | Failure(error: E) {

    predicate IsFailure() {
      Failure?
    }

    function PropagateFailure<U>(): Result<U, E>
      requires Failure?
    {
      Failure(error)
    }

    function Extract(): T
      requires Success?
    {
      value
    }
  }
}
